=== FILE: README.md ===
# alog: a bounded circular log file, modelled in Dafny

`alog` copies its standard input into a log file of bounded size. The file
starts with a 20-byte header (`struct bl_head`: magic number, `top`,
`current`, `bottom`, `size`, each a 32-bit C `int` stored most significant
byte first). The data region from `top` to `size` is used as a ring. Bytes
are written at `current`. When `current` reaches `size`, writing wraps back to
`top` and `bottom` is set to `size`. `alog -o` prints the log oldest byte
first: offsets `[current, bottom)`, then `[top, current)`. On creation the
size is rounded up to a multiple of 4096 bytes and capped by the free space
of the file system. With `-s` an existing log is grown in place (NUL bytes
added at the end) or shrunk by piping its printed content into a new log and
moving that over the old one. `set_result` keeps the first nonzero exit
status.

The project is organised by the program's own units:

- `endian.dfy` (module `Endian`) models `swap_uint32` and how a host lays out
  a word in memory. The host byte order is the parameter `little`.
- `log_format.dfy` (module `LogFormat`) holds the header, the constants of
  `alog.h`, and the C `int` reading of a 32-bit field.
- `alog_util.dfy` (module `AlogUtil`) models `to_big_endian`, the header as
  written and read back, and `output_log` as a function (`DumpLog`) and as the
  method with its two read loops (`OutputLog`).
- `ring.dfy` (module `RingSpec`) is the ring as a value: one step of the
  append loop, the fix-up of `bottom`, the reader's order, growth.
- `capacity.dfy` (module `Capacity`) covers the size request, its rounding
  and the free-space caps.
- `exit_status.dfy` (module `ExitStatus`) covers `set_result` and the
  flag-combination check.
- `store.dfy` (module `Store`) models the log file at rest. It covers the
  header image, what opening a file finds, the files the create, resize,
  append and write-back steps leave behind, and the properties of those
  files.
- `session.dfy` (module `Session`) is the logging path of `main`: a class
  `LogSession` whose fields are `lp`'s cursors, the bytes of `fout`,
  whether `fout` is `/dev/null`, and `result`. Its methods update those fields the way `main`
  does step by step.
- `findings.dfy` (module `Findings`) models three places where the code as
  written departs from what the program evidently intends (see Findings).

The central results:

- A header written on one host is read back unchanged on any host
  (`AlogUtil.DecodeEncode`).
- A new log fed some input keeps the newest bytes that fit, in order
  (`Store.FreshSessionKeepsNewest`).
- A session on an existing log, resized or not, leaves a log that
  `output_log` prints as a suffix of the old output followed by the input,
  ending with the newest input bytes that fit (`Session.Run`).
- Resizing keeps everything when the log grows and keeps the newest bytes
  when it shrinks (`Store.ResizeKeeps`).

## Model

| member | source | states |
|---|---|---|
| Endian.SwapUint32 | endian.c:3-8 | swap_uint32 with the same masks and shifts; what it computes (the four bytes reversed, its own inverse) is stated by SwapReversesBytes and SwapInvolution |
| Endian.SwapReversesBytes | endian.c:3-8 | byte k of `swap_uint32(x)` is byte 3 - k of x |
| Endian.SwapInvolution | endian.c:3-8 | swapping twice gives the word back |
| Endian.SwapFixedPoint | endian.c:3-8 | a word is its own swap exactly when its first and last bytes agree and its middle two agree |
| Endian.SwappedMagic | endian.c:3-8 | ALOG_MAGIC swapped is 0xf4f9f3f9, so a little-endian host without the swap sees a wrong magic number |
| Endian.HostWordOfHostBytes | endian.c:10-15 | a word laid out in memory by a host and read back by the same host is unchanged |
| Endian.HostWordCrossed | endian.c:10-15 | a word laid out by a host of one byte order and read by the other comes out byte-swapped |
| LogFormat.AsInt | alog.h:27-34 | the C `int` value of a header field is its two's-complement reading: it lies in [-2^31, 2^31) and is congruent to the unsigned value modulo 2^32, so it equals that value when not negative |
| LogFormat.AsIntToWord | alog.h:27-34 | a non-negative `int` stored in a header field reads back as itself |
| AlogUtil.ToBigEndian | alog_util.c:10-21 | to_big_endian: every field swapped on a little-endian host, the header unchanged on a big-endian one; ToBigEndianTwice and ToBigEndianBytes state its properties |
| AlogUtil.ToBigEndianTwice | alog_util.c:10-21 | applying to_big_endian twice restores the header on either host |
| AlogUtil.ToBigEndianBytes | alog_util.c:10-21 | to_big_endian is the identity on a big-endian host and reverses the bytes of all five fields on a little-endian host |
| AlogUtil.EncodeIsBigEndian | alog_util.c:10-21 | the 20 bytes written after to_big_endian are each field most significant byte first, on either host |
| AlogUtil.Encode | alog.c:429-431 | the 20 bytes `fwrite` writes after to_big_endian; EncodeIsBigEndian states that they are the big-endian image on either host |
| AlogUtil.Decode | alog.c:376-377 | the header `fread` fills, then to_big_endian; DecodeEncode and EncodeDecode state that it inverts Encode |
| AlogUtil.DecodeEncode | alog_util.c:36-44 | a header written on one host and read with to_big_endian on any host is the same header |
| AlogUtil.EncodeDecode | alog_util.c:36-44 | every 20-byte block is the encoding of the header read from it |
| AlogUtil.Segment | alog_util.c:63-80 | an `fgetc` loop yields exactly the bytes at [from, to) when they lie in the file, and otherwise the part of them inside the file: it stops at end of file and not before |
| AlogUtil.DumpLog | alog_util.c:29-104 | status is 0 or 2; an unopenable file, a short header or a wrong magic number print nothing and give status 2 |
| AlogUtil.DumpCursors | alog_util.c:50-101 | a negative `current` prints nothing with status 2; a negative `top` prints the first segment and gives status 2; with both cursors not negative, both loops run, each stopping at end of file, and the status is 0; for top <= current <= bottom <= file length the output is [current, bottom) then [top, current), bottom - top bytes |
| AlogUtil.DumpWellFormed | alog_util.c:29-104 | a file whose header has the magic number and well-ordered cursors prints [current, bottom) then [top, current), bottom - top bytes, with status 0 |
| AlogUtil.OutputLog | alog_util.c:29-104 | output_log's checks and two loops produce exactly DumpLog |
| AlogUtil.EmitSegments | alog_util.c:63-101 | the two loops after the header check produce exactly DumpCursors |
| AlogUtil.ReadSegment | alog_util.c:66-79 | one `fgetc` loop produces exactly Segment |
| Capacity.Requested | alog.c:310-311 | the working request is at least DEF_SIZE and at least the argument, and it equals the argument when that is at least DEF_SIZE |
| Capacity.RoundUp | alog.c:415 | the rounded size is a multiple of DEF_SIZE, at least the request, and less than DEF_SIZE above it |
| Capacity.RoundUpLeast | alog.c:415 | the rounding is the least multiple of DEF_SIZE at or above the request |
| Capacity.RoundUpMultiple | alog.c:461 | a size that is already a multiple of DEF_SIZE is left as it is |
| Capacity.BoundedRequest | alog.c:310-311 | the corrected request lies in [DEF_SIZE, 0x7FFFF000], equals the source's request up to that bound, and its rounding fits a C `int` |
| Capacity.BoundedSizes | alog.c:415-425 | every size a bounded request gives on creation, or by growth of a log that fits, is at most 0x7FFFF000, and a multiple of DEF_SIZE when the old size was |
| Capacity.CreateSize | alog.c:415-425 | a new log gets the rounded request, or DEF_SIZE with result 2 exactly when the rounded request exceeds the free bytes and those exceed DEF_SIZE; it then never exceeds the free bytes |
| Capacity.GrowSize | alog.c:458-471 | growth goes to the rounded request, or the size stays with result 2 exactly when the growth exceeds the free bytes; undegraded growth fits in the free bytes |
| ExitStatus.MergeResult | alog.c:598-604 | the result is zero only when both the old result and the new one are zero |
| ExitStatus.AccumulateKeeps | alog.c:598-604 | once nonzero, the result is never changed by later calls |
| ExitStatus.FirstNonzeroWins | alog.c:598-604 | starting from 0, a series of calls leaves the first nonzero status given |
| ExitStatus.BadCombination | alog.c:217-264 | the flag check's rejecting conditions, one disjunct per rule; AcceptedCombinations states what it lets through |
| ExitStatus.AcceptedCombinations | alog.c:217-264 | an accepted flag combination selects at most one of -C, -L, -o and -V; -o comes with -f or -t and without -s and -q; -w comes with -C and -t; -q and -s come with -f or -t |
| ExitStatus.LoggingAccepted | alog.c:217-264 | logging to a named file, with or without -s and -q, passes the check |
| RingSpec.Step | alog.c:555-571 | one pass of the append loop: the byte goes at `current` while that is below `size`, otherwise writing wraps to `top` and `bottom` becomes `size`; the ring stays live with `top` and `size` unchanged |
| RingSpec.Ordered | alog_util.c:63-101 | the bytes the reader prints, [current, read end) then [top, current): exactly read end - top bytes |
| RingSpec.StepWritesOneByte | alog.c:555-571 | one pass of the append loop writes the byte at `current`, or at `top` on a wrap, changes no other byte, moves `current` past it and sets `bottom` to `size` exactly on a wrap |
| RingSpec.Steps | alog.c:549-573 | the append loop keeps the ring well formed and never changes `top` or `size` |
| RingSpec.Settle | alog.c:575-576 | after the fix-up top <= current <= bottom <= size, `bottom` is the larger of its old value and `current`, nothing else changes |
| RingSpec.OrderedSettle | alog.c:575-576 | the fix-up of `bottom` does not change what the reader prints |
| RingSpec.OrderedStep | alog.c:555-571 | one append adds the byte at the newest end of the content and, exactly when the ring is full, drops the oldest byte |
| RingSpec.StepBelowReadEnd | alog.c:555-561 | an append past the oldest generation only adds the byte |
| RingSpec.StepInsideOldGeneration | alog.c:555-561 | an append inside an older generation overwrites the oldest byte |
| RingSpec.StepWraps | alog.c:562-571 | an append at `size` wraps, overwriting the oldest byte |
| RingSpec.OrderedSteps | alog.c:549-573 | after any input, the content oldest first is a suffix of the old content followed by the input |
| RingSpec.StepsReach | alog.c:555-571 | until the first wrap `current` has moved past every appended byte; from the first wrap on the reader's end is `size` |
| RingSpec.KeepsNewestInput | alog.c:549-573 | from any well-formed ring, the content afterwards ends with the newest min(n, size - top) input bytes, in order |
| RingSpec.FreshCursors | alog.c:549-573 | from a new log, `current` is top + n and `bottom` stays at top while n fits; after that `bottom` is `size` |
| RingSpec.FreshHistory | alog.c:549-573 | from a new log, the content oldest first is the last min(n, size - top) input bytes |
| RingSpec.SessionKeepsOrder | alog.c:549-576 | a session keeps top <= current <= bottom <= size, `top` and `size`, and never writes before `top` |
| RingSpec.Grown | alog.c:471-475 | growth extends the file to the new size and keeps the cursors |
| RingSpec.OrderedGrown | alog.c:471-475 | growth does not change what the reader prints |
| Store.HeaderFor | alog.c:398-425 | `lp` holds the magic number and the given cursors as C `int`s |
| Store.Image | alog.c:425-431 | the 20 header bytes as the file holds them: the magic number, then each cursor most significant byte first, 20 bytes; ImageIsEncoding states that it equals Encode of the header on either host |
| Store.ImageIsEncoding | alog.c:428-431 | to_big_endian, fwrite, to_big_endian write the same 20 bytes on either host |
| Store.ReadImage | alog.c:376-379 | reading that header back, on either host, gives the magic number and the cursors |
| Store.HeaderBytes | alog.c:428-431 | the header write puts the host-independent image of `lp` at offset 0 |
| Store.ReadCursors | alog.c:524-528 | reading the header of a stored log back gives exactly its cursors |
| Store.ReadBack | alog.c:376-379 | a stored log's header reads back as the magic number and its cursors |
| Store.DumpStored | alog_util.c:29-104 | output_log prints a stored log's content oldest byte first, with status 0 |
| Store.Classify | alog.c:373-394 | a short file or a wrong magic number is not a log; an adopted file is a stored log with the cursors its header names |
| Store.AdoptedRing | alog.c:373-380 | the ring main adopts from a file it accepts as a log: the cursors Classify reads, over the file's bytes; it is a stored ring |
| Store.AdoptedStored | alog.c:373-380 | a file with the magic number and cursors consistent with its length is a stored log |
| Store.ReopenStored | alog.c:373-380 | reopening a stored log adopts exactly its cursors |
| Store.Rewritten | alog.c:579-582 | writing the header back makes the file's first 20 bytes the image of the cursors and leaves the cursors and every later byte unchanged |
| Store.RewrittenStored | alog.c:579-582 | after the header write the file is a stored log and prints the same content |
| Store.RewriteStored | alog.c:517-522 | rewriting the header of a stored log changes nothing |
| Store.CloseStores | alog.c:575-582 | the end of a session leaves a stored log that prints the same content |
| Store.CloseRing | alog.c:575-582 | the fix-up of `bottom` and the header write-back; the ring stays live with `top` and `size` unchanged |
| Store.Logged | alog.c:549-582 | the append loop over the input, then CloseRing; the ring stays live with `top` and `size` unchanged |
| Store.SessionStores | alog.c:549-582 | a session on a stored log leaves a stored log whose content is a suffix of the old content followed by the input and ends with the newest min(n, size - 20) input bytes |
| Store.PrintedSuffix | alog_util.c:29-104 | that suffix relation holds between the outputs of output_log |
| Store.PrintsAfter | alog_util.c:29-104 | when a stored log's content is a suffix of an earlier one's followed by the input and ends with the newest input bytes that fit, output_log's output says the same of the two outputs |
| Store.FreshRing | alog.c:398-437 | a new log has every cursor at `top` = 20 and the requested size |
| Store.FreshStored | alog.c:398-437 | a new log is a stored log that prints nothing |
| Store.FreshSessionKeepsNewest | alog.c:398-437 | a new log fed input prints the last min(n, size - 20) input bytes in order; the '0' fill never shows |
| Store.Reflowed | alog.c:478-496 | the reflowed log has the size a new log created with the rounded request gets |
| Store.ReflowKeepsNewest | alog.c:478-503 | the reflow leaves a stored log holding the newest bytes that fit the new size, oldest first, so its content is a suffix of the old content |
| Store.Resized | alog.c:448-528 | the file after the -s block: grown and rewritten, reflowed, or rewritten; it stays live with a size below 2^31 |
| Store.ResizeStatus | alog.c:465-469 | -s sets result 2 exactly when an opened growth exceeds the free bytes or the `mv` of a shrink fails |
| Store.ResizeKeeps | alog.c:448-528 | resizing leaves a stored log: growth or an equal size keeps content and cursors, a failed `mv` keeps the file, a shrink keeps the newest bytes that fit |
| Store.GrowKeeps | alog.c:452-476 | growth and the header write keep the cursors and the content and set the grown size |
| Store.ResizeStores | alog.c:448-528 | with or without -s, the log the append loop starts on is stored and its content is a suffix of the content at open |
| Store.AdoptedSessionKeepsOrder | alog.c:373-582 | a session on an existing log, resized or not, leaves a stored log whose content is a suffix of the old content followed by the input and ends with the newest input bytes that fit the (resized) log |
| Session.LogSession.Create | alog.c:398-437 | a created log has the capped rounded size, the header image and the '0' fill; result 2 when it goes to /dev/null or is capped |
| Session.LogSession.Open | alog.c:373-394 | a log is adopted as it stands (the state is AdoptedRing of the file, the result unchanged); anything else gives a /dev/null session with cursors 0, size DEF_SIZE and result 2 |
| Session.LogSession.SetResult | alog.c:598-604 | the result becomes the old one when nonzero, the new one otherwise; nothing else changes |
| Session.LogSession.Append | alog.c:555-571 | one loop pass changes the state exactly as one ring step |
| Session.LogSession.AppendAll | alog.c:549-573 | the read loop changes the state exactly as the ring steps over the input |
| Session.LogSession.WriteHeader | alog.c:579-582 | the header write replaces only the first 20 bytes, with the image of the cursors |
| Session.LogSession.Close | alog.c:575-582 | the end of the session applies the fix-up of `bottom` and the header write |
| Session.LogSession.Grow | alog.c:452-476 | growth sets the size from GrowSize, appends NUL bytes up to it and sets result 2 when capped |
| Session.LogSession.Shrink | alog.c:478-503 | a shrink replaces the log with its reflow when `mv` succeeds and otherwise keeps it with result 2 |
| Session.LogSession.Replace | alog.c:524-528 | after `mv`, the header read back gives the cursors of the moved log |
| Session.LogSession.Print | alog.c:488-492 | `alog -f log -o` on the session's log produces its content oldest first |
| Session.LogSession.Resize | alog.c:448-528 | -s changes a log exactly as Resized with the status of ResizeStatus, and leaves a /dev/null session alone |
| Session.LogSession.LogAdopted | alog.c:448-582 | the new state is the input logged into the log as resized by -s (or as it stood), the result merges the resize status when -s is set; the log stays stored, its content is a suffix of the old content followed by the input and ends with the newest input bytes that fit |
| Session.LogNew | alog.c:398-437 | a log that did not exist is created with the size CreateSize gives and left as the input logged into the fresh ring, or the session goes to /dev/null exactly when it cannot be; the result merges 2 for a failed creation and 2 for a size reduced to DEF_SIZE; a created log prints the newest input bytes that fit |
| Session.LogExisting | alog.c:373-396 | for a file that opens for update: a log ends as the input logged into it, resized first when -s is set, with the resize status merged, and prints a suffix of its old output followed by the input that ends with the newest input bytes that fit; a file that is not a log gives a /dev/null session with result 2 |
| Session.LogIntoLog | alog.c:373-377 | the session on a file that holds a log: the exact state and result after -s, the append loop and the write-back, and what output_log then prints |
| Session.AdoptedPrints | alog_util.c:29-104 | a session left as the input logged into an adopted log prints a suffix of what that log printed followed by the input, ending with the newest input bytes that fit |
| Session.Reflow | alog.c:488-492 | the child `alog -s` creates a log with the rounded request, feeds it the content and closes it |
| Session.Run | alog.c:373-582 | a new log gets the size CreateSize gives for the bounded request and holds the input logged into the fresh ring; it goes to /dev/null exactly when it cannot be created, with the creation statuses merged into the result, and otherwise prints the newest input that fits; an adopted log ends as the input logged into the log as it was opened, resized first when -s is set, and prints a suffix of its old output followed by the input that ends with the newest input bytes that fit, with the resize status merged when -s is set; a file that is not a log is untouched and the result is 2 |
| Findings.RereadAsWritten | alog.c:524-528 | the header read with no to_big_endian matches the decoded header on a big-endian host |
| Findings.RereadSwapsOnLittleEndian | alog.c:524-528 | on a little-endian host that read gives magic 0xf4f9f3f9 and top 0x14000000, and writing it back leaves a file with the wrong magic number |
| Findings.FallbackResizeAsWritten | alog.c:448-522 | the file -s leaves behind after a fallback to /dev/null is at least a header long |
| Findings.FallbackResizeClobbers | alog.c:448-522 | a file that is not a log is changed by that block and then carries the magic number of a log |
| Findings.Wrap32 | alog.c:415 | a value held in a 32-bit `int` lies in [-2^31, 2^31), is congruent to the exact value and equals it when that fits |
| Findings.RoundUpInt32 | alog.c:415 | the rounding as the C `int` computes it, wrapped to 32 bits; RoundUpInt32Overflows states where it departs from RoundUp |
| Findings.RoundUpInt32Overflows | alog.c:415 | 32-bit rounding is exact up to 0x7FFFF000 and gives -2^31 above it |
| Findings.BoundedRoundingExact | alog.c:415 | with the bounded request the 32-bit rounding equals the exact one |

## Left out

- Option parsing (`getopt`), the usage message and the locale setup are not part of this model; the flag-combination check is modelled on a record of the flags. A -s argument that is not positive sets result 1 during parsing and leaves -s unset (alog.c:159-166), so `Session.Run` takes `resize` only together with a positive size.
- The -C, -L, -V and -w modes (the ODM type database) are outside the ring store.
- `is_little_endian` is the parameter `little` rather than a memory probe.
- File I/O is modelled on the file's bytes as a sequence. Standard input is a byte sequence; reading it in BUFSIZ chunks does not change the bytes appended.
- `statfs` is a parameter. `free` is the value of `free_bytes` as the C `int` holds it, and `None` means the call failed.
- The success of `fopen(..., "a")` (`appendOk`) and of `mv` (`mvOk`) are parameters. The temporary file's free space is `tmpFree`.
- The console copy to `fcon` (standard output, or /dev/null with -q) is left out: it receives the input unchanged.
- Ignoring SIGINT is left out, since signals are not modelled.
- The exit status of the child `alog` processes and a failure to open /dev/null (exit 2 or -1) are left out.
- A failure to reopen the log after -s (alog.c:505-512), which sends the rest of the session to /dev/null with result 2, is left out.
- `ferror` is not modelled: a read error ends an `fgetc` loop like end of file, as in the source.
- Session.LogSession.Open: requires a header that is not Inconsistent (so do Session.LogExisting and Session.Run, which call it): a file with the magic number whose `top` is not 20, whose cursors are out of order, or whose `size` differs from the file's length is not modelled. The source adopts such files. It can produce them itself: the -s block after a fallback writes a header with `top` 0 (see Findings), and a grown log can end up longer than `size` (next line). Adopting them would need a ring whose cursors may lie outside the file.
- Session.LogSession.Grow: the NUL fill is added to the file at once. The source writes it through a stream opened at alog.c:454 that it never closes, because `fout` is reassigned at alog.c:505. Whatever that stream still buffers is flushed only at exit, after the session's own writes, at the end of the file as it then is. A session whose writes pass the flushed part can leave a file longer than `size`, with its tail of NUL bytes beyond `size`. That ordering of buffered writes is not modelled.
- Store.Classify: an existing file shorter than 20 bytes counts as not a log. The source then compares a magic number `fread` did not fill.
- Session.Run: uses the corrected request, capped at 0x7FFFF000 (Capacity.BoundedRequest), because larger requests overflow the rounding as written (see Findings).
- Session.LogSession.Resize: a /dev/null session is left alone, which is the corrected behaviour (see Findings).
- Session.LogSession.Shrink: uses the corrected re-read with to_big_endian (see Findings).
- The bytes written to /dev/null are kept in the session's `file` field, but nothing reads them.

## Findings

| source | as written | input that shows it | evidently intended | confidence | as-written member | corrected member |
|---|---|---|---|---|---|---|
| alog.c:524-528 | after a shrink the header is read with `fread` and no `to_big_endian` | any shrink on a little-endian host: magic reads 0xf4f9f3f9 and `top` 0x14000000, and the appends seek past the log; the header written back at the end has the wrong magic number | convert the header read back, as every other read does | not executed | Findings.RereadSwapsOnLittleEndian | Store.ReadCursors |
| alog.c:448-522 | after falling back to /dev/null for a file that is not a log, -s still opens that file for appending and update and writes a log header at offset 0 | `alog -f notes.txt -s 8192` on an existing text file | leave a file that is not a log alone, which is what the fallback to /dev/null at alog.c:379-392 is for | not executed | Findings.FallbackResizeClobbers | Session.LogSession.Resize |
| alog.c:415 | the rounding `((j / DEF_SIZE) + (j % DEF_SIZE != 0)) * DEF_SIZE` overflows a 32-bit `int` for requests above 0x7FFFF000 | `alog -f log -s 2147483000` rounds to -2147483648, which becomes the log's size | reject or cap requests whose rounding does not fit an `int` | not executed | Findings.RoundUpInt32Overflows | Capacity.BoundedRequest |

=== FILE: alog_util.dfy ===
/** Support routines (alog_util.c): the header's byte-order transform and the
    reader that prints a log oldest byte first. */
module AlogUtil {
  import opened Endian
  import opened LogFormat
  import opened Wrappers

  /** to_big_endian: on a little-endian host every field is byte-swapped; on a
      big-endian host the header is left as it is. */
  function ToBigEndian(h: Header, little: bool): Header
  {
    if little then
      Header(SwapUint32(h.magic), SwapUint32(h.top), SwapUint32(h.current),
             SwapUint32(h.bottom), SwapUint32(h.size))
    else h
  }

  /** Applying the transform twice restores the header, on either host; this is
      what lets the source swap, write and swap back. */
  lemma {:induction false} ToBigEndianTwice(h: Header, little: bool)
    ensures ToBigEndian(ToBigEndian(h, little), little) == h
  {
    SwapInvolution(h.magic);
    SwapInvolution(h.top);
    SwapInvolution(h.current);
    SwapInvolution(h.bottom);
    SwapInvolution(h.size);
  }

  /** The transform is the identity on a big-endian host, and on a little-endian
      host it reverses the bytes of every field. */
  lemma ToBigEndianBytes(h: Header, little: bool, k: nat)
    requires k < 4
    ensures !little ==> ToBigEndian(h, little) == h
    ensures little ==> var r := ToBigEndian(h, little);
      && ByteOf(r.magic, k) == ByteOf(h.magic, 3 - k)
      && ByteOf(r.top, k) == ByteOf(h.top, 3 - k)
      && ByteOf(r.current, k) == ByteOf(h.current, 3 - k)
      && ByteOf(r.bottom, k) == ByteOf(h.bottom, 3 - k)
      && ByteOf(r.size, k) == ByteOf(h.size, 3 - k)
  {
    SwapReversesBytes(h.magic, k);
    SwapReversesBytes(h.top, k);
    SwapReversesBytes(h.current, k);
    SwapReversesBytes(h.bottom, k);
    SwapReversesBytes(h.size, k);
  }

  /** The 20 bytes of the struct as it sits in the host's memory (what `fwrite`
      writes and `fread` fills), fields in declaration order. */
  function StructBytes(h: Header, little: bool): (s: seq<bv8>)
    ensures |s| == HeaderSize
  {
    HostBytes(h.magic, little) + HostBytes(h.top, little) + HostBytes(h.current, little)
      + HostBytes(h.bottom, little) + HostBytes(h.size, little)
  }

  /** The struct `fread` produces from 20 bytes. */
  function StructOf(s: seq<bv8>, little: bool): Header
    requires |s| == HeaderSize
  {
    Header(HostWord(s[0..4], little), HostWord(s[4..8], little), HostWord(s[8..12], little),
           HostWord(s[12..16], little), HostWord(s[16..20], little))
  }

  /** The header as written to disk: transformed, written, transformed back. */
  function Encode(h: Header, little: bool): seq<bv8>
  {
    StructBytes(ToBigEndian(h, little), little)
  }

  /** The header as read from disk: read, then transformed. */
  function Decode(s: seq<bv8>, little: bool): Header
    requires |s| == HeaderSize
  {
    ToBigEndian(StructOf(s, little), little)
  }

  /** Reference layout of the file format: each field big-endian, most
      significant byte first, in the order magic, top, current, bottom, size. */
  function BigEndianWord(w: bv32): seq<bv8>
  {
    [ByteOf(w, 3), ByteOf(w, 2), ByteOf(w, 1), ByteOf(w, 0)]
  }

  function BigEndianImage(h: Header): seq<bv8>
  {
    BigEndianWord(h.magic) + BigEndianWord(h.top) + BigEndianWord(h.current)
      + BigEndianWord(h.bottom) + BigEndianWord(h.size)
  }

  lemma HostBytesOfTransformed(w: bv32, little: bool)
    ensures HostBytes(if little then SwapUint32(w) else w, little) == BigEndianWord(w)
  {
    if little {
      HostBytesOfSwap(w, little);
    }
  }

  /** Whatever the host, the bytes on disk are the big-endian image. */
  lemma EncodeIsBigEndian(h: Header, little: bool)
    ensures Encode(h, little) == BigEndianImage(h)
  {
    HostBytesOfTransformed(h.magic, little);
    HostBytesOfTransformed(h.top, little);
    HostBytesOfTransformed(h.current, little);
    HostBytesOfTransformed(h.bottom, little);
    HostBytesOfTransformed(h.size, little);
  }

  lemma StructOfStructBytes(h: Header, little: bool)
    ensures StructOf(StructBytes(h, little), little) == h
  {
    StructOfParts(HostBytes(h.magic, little), HostBytes(h.top, little), HostBytes(h.current, little),
                  HostBytes(h.bottom, little), HostBytes(h.size, little), little);
    HostWordOfHostBytes(h.magic, little);
    HostWordOfHostBytes(h.top, little);
    HostWordOfHostBytes(h.current, little);
    HostWordOfHostBytes(h.bottom, little);
    HostWordOfHostBytes(h.size, little);
  }

  /** Each field of the struct is read from its own four bytes. */
  lemma StructOfParts(a: seq<bv8>, b: seq<bv8>, c: seq<bv8>, d: seq<bv8>, e: seq<bv8>, little: bool)
    requires |a| == 4 && |b| == 4 && |c| == 4 && |d| == 4 && |e| == 4
    ensures StructOf(a + b + c + d + e, little)
         == Header(HostWord(a, little), HostWord(b, little), HostWord(c, little),
                   HostWord(d, little), HostWord(e, little))
  {
    var s := a + b + c + d + e;
    assert s[0..4] == a && s[4..8] == b && s[8..12] == c && s[12..16] == d && s[16..20] == e;
  }

  /** A header written on one host is read back unchanged on any host. */
  lemma DecodeEncode(h: Header, writer: bool, reader: bool)
    ensures Decode(Encode(h, writer), reader) == h
  {
    EncodeIsBigEndian(h, writer);
    EncodeIsBigEndian(h, reader);
    StructOfStructBytes(ToBigEndian(h, reader), reader);
    ToBigEndianTwice(h, reader);
  }

  /** Conversely, every 20-byte block is the encoding of the header it decodes to. */
  lemma EncodeDecode(s: seq<bv8>, little: bool)
    requires |s| == HeaderSize
    ensures Encode(Decode(s, little), little) == s
  {
    ToBigEndianTwice(StructOf(s, little), little);
    StructBytesOfStructOf(s, little);
  }

  lemma StructBytesOfStructOf(s: seq<bv8>, little: bool)
    requires |s| == HeaderSize
    ensures StructBytes(StructOf(s, little), little) == s
  {
    var h := StructOf(s, little);
    var b0, b1, b2, b3, b4 := s[0..4], s[4..8], s[8..12], s[12..16], s[16..20];
    HostBytesOfHostWord(b0, little);
    HostBytesOfHostWord(b1, little);
    HostBytesOfHostWord(b2, little);
    HostBytesOfHostWord(b3, little);
    HostBytesOfHostWord(b4, little);
    assert HostBytes(h.magic, little) == b0;
    assert HostBytes(h.top, little) == b1;
    assert HostBytes(h.current, little) == b2;
    assert HostBytes(h.bottom, little) == b3;
    assert HostBytes(h.size, little) == b4;
    assert s == b0 + b1 + b2 + b3 + b4;
  }


  /** What output_log produces: the bytes written to standard output and the
      exit status (0 when the reader returns, 2 when it exits early). */
  datatype Dump = Dump(out: seq<bv8>, status: int)

  /** The bytes one `fgetc` loop emits for offsets [from, to): it stops early at
      end of file and not before, so the result is the prefix of the bytes at
      those offsets that lies inside the file. */
  function Segment(f: seq<bv8>, from: int, to: int): (s: seq<bv8>)
    requires 0 <= from
    ensures from < to <= |f| ==> s == f[from..to]
    ensures |s| <= if from < to then to - from else 0
    ensures |s| > 0 ==> from + |s| <= |f| && s == f[from..from + |s|]
    ensures |s| == if from < to && from < |f| then (if to < |f| then to else |f|) - from else 0
  {
    if from < to && from < |f| then f[from..if to < |f| then to else |f|] else []
  }

  /** output_log on a file with contents `file` (None: it cannot be opened).
      A short header or a wrong magic number ends the program with status 2
      before anything is printed. */
  function DumpLog(file: Option<seq<bv8>>, little: bool): (d: Dump)
    ensures d.status == 0 || d.status == 2
    ensures file.None? ==> d == Dump([], 2)
    ensures file.Some? && |file.value| < HeaderSize ==> d == Dump([], 2)
    ensures file.Some? && |file.value| >= HeaderSize ==>
              (Decode(file.value[..HeaderSize], little).magic != AlogMagic ==> d == Dump([], 2))
  {
    match file
    case None => Dump([], 2)
    case Some(f) =>
      if |f| < HeaderSize then Dump([], 2)
      else
        var h := Decode(f[..HeaderSize], little);
        if h.magic != AlogMagic then Dump([], 2)
        else DumpCursors(f, AsInt(h.top), AsInt(h.current), AsInt(h.bottom))
  }

  /** The two segments output_log prints once the header is accepted: a
      negative `current` fails the first seek (status 2, nothing printed), a
      negative `top` fails the second one (status 2 after the first segment).
      Otherwise both loops run, each stopping early at end of file, and the
      status is 0. */
  function DumpCursors(f: seq<bv8>, top: int, current: int, bottom: int): (d: Dump)
    ensures d.status == 0 || d.status == 2
    ensures current < 0 ==> d == Dump([], 2)
    ensures 0 <= current && top < 0 ==> d == Dump(Segment(f, current, bottom), 2)
    ensures 0 <= top && 0 <= current ==>
              d == Dump(Segment(f, current, bottom) + Segment(f, top, current), 0)
    ensures 0 <= top <= current <= bottom <= |f| ==>
              d == Dump(f[current..bottom] + f[top..current], 0) && |d.out| == bottom - top
  {
    if current < 0 then Dump([], 2)
    else
      var first := if current != bottom then Segment(f, current, bottom) else [];
      if top < 0 then Dump(first, 2)
      else Dump(first + Segment(f, top, current), 0)
  }

  /** A well-formed log (top <= current <= bottom <= file length) is printed as
      the bytes at [current, bottom) followed by those at [top, current):
      exactly bottom - top bytes, with status 0. */
  lemma DumpWellFormed(f: seq<bv8>, little: bool)
    requires |f| >= HeaderSize
    requires Decode(f[..HeaderSize], little).magic == AlogMagic
    requires var h := Decode(f[..HeaderSize], little);
      0 <= AsInt(h.top) <= AsInt(h.current) <= AsInt(h.bottom) <= |f|
    ensures var h := Decode(f[..HeaderSize], little);
      var t, c, b := AsInt(h.top), AsInt(h.current), AsInt(h.bottom);
      && DumpLog(Some(f), little) == Dump(f[c..b] + f[t..c], 0)
      && |DumpLog(Some(f), little).out| == b - t
  {
  }

  /** output_log as the source runs it. */
  method OutputLog(file: Option<seq<bv8>>, little: bool) returns (d: Dump)
    ensures d == DumpLog(file, little)
  {
    if file.None? {
      return Dump([], 2);
    }
    var f := file.value;
    if |f| < HeaderSize {
      return Dump([], 2);
    }
    var h := Decode(f[..HeaderSize], little);
    if h.magic != AlogMagic {
      return Dump([], 2);
    }
    d := EmitSegments(f, AsInt(h.top), AsInt(h.current), AsInt(h.bottom));
  }

  /** The two `fgetc` loops of output_log. */
  method EmitSegments(f: seq<bv8>, top: int, current: int, bottom: int) returns (d: Dump)
    ensures d == DumpCursors(f, top, current, bottom)
  {
    if current < 0 {
      return Dump([], 2);
    }
    var first: seq<bv8> := [];
    if current != bottom {
      first := ReadSegment(f, current, bottom);
    }
    if top < 0 {
      return Dump(first, 2);
    }
    var second := ReadSegment(f, top, current);
    d := Dump(first + second, 0);
  }

  /** One `fgetc` loop: offsets from `from` up to `to`, leaving early at end of file. */
  method ReadSegment(f: seq<bv8>, from: int, to: int) returns (s: seq<bv8>)
    requires 0 <= from
    ensures s == Segment(f, from, to)
  {
    s := [];
    var i := from;
    while i < to
      invariant from <= i
      invariant i > from ==> i <= to && i <= |f|
      invariant s == if i > from then f[from..i] else []
    {
      if i >= |f| {
        break;
      }
      s := s + [f[i]];
      i := i + 1;
    }
  }
}

=== FILE: capacity.dfy ===
/** Size arithmetic of alog.c: the size request, its rounding to a multiple of
    DEF_SIZE and the caps set by the free space of the file system. */
module Capacity {
  import opened LogFormat
  import opened Wrappers

  /** The size request main works with: absent or below DEF_SIZE, it is raised
      to DEF_SIZE (alog.c:310-311). */
  function Requested(logSize: int): (n: int)
    ensures n >= DefSize && n >= logSize
    ensures logSize >= DefSize ==> n == logSize
  {
    if logSize < DefSize then DefSize else logSize
  }

  /** `((j / DEF_SIZE) + (j % DEF_SIZE != 0)) * DEF_SIZE` on unbounded integers:
      a multiple of DEF_SIZE, at least `j`, less than DEF_SIZE above it. */
  function RoundUp(j: int): (n: int)
    requires j >= 1
    ensures n % DefSize == 0 && j <= n < j + DefSize
  {
    (j / DefSize + if j % DefSize != 0 then 1 else 0) * DefSize
  }

  /** RoundUp gives the least multiple of DEF_SIZE that is at least `j`. */
  lemma RoundUpLeast(j: int, m: int)
    requires j >= 1 && m % DefSize == 0 && m >= j
    ensures RoundUp(j) <= m
  {
    var n := RoundUp(j);
    var a, b := m / DefSize, n / DefSize;
    assert m == a * DefSize && n == b * DefSize;
    assert (b - a) * DefSize < DefSize;
  }

  /** A multiple of DEF_SIZE is its own rounding. */
  lemma RoundUpMultiple(j: int)
    requires j >= 1 && j % DefSize == 0
    ensures RoundUp(j) == j
  {
    RoundUpLeast(j, j);
  }

  /** The largest request whose rounding still fits in a C `int`. */
  const MaxRequest: int := 0x7FFF_F000

  /** A size chosen for a log, and whether choosing it degraded the result. */
  datatype Sized = Sized(size: int, degraded: bool)

  /** The size of a newly created log (alog.c:415-425): the rounded request,
      unless it exceeds the free bytes of the file system while those exceed
      DEF_SIZE, in which case the log gets DEF_SIZE and the result is degraded.
      `free` is None when the file system cannot be queried. */
  function CreateSize(request: int, free: Option<int>): (r: Sized)
    requires request >= 1
    ensures r.size % DefSize == 0 && r.size >= DefSize
    ensures r.degraded <==> free.Some? && RoundUp(request) > free.value > DefSize
    ensures r.degraded ==> r.size == DefSize
    ensures !r.degraded ==> r.size == RoundUp(request) && r.size >= request
    ensures free.Some? && free.value > DefSize ==> r.size <= free.value
  {
    var n := RoundUp(request);
    if free.Some? && n > free.value && free.value > DefSize then Sized(DefSize, true)
    else Sized(n, false)
  }

  /** The size after growing a log of size `current` (alog.c:458-475): the rounded
      request, unless the growth exceeds the free bytes, in which case the size
      stays and the result is degraded. */
  function GrowSize(current: int, request: int, free: Option<int>): (r: Sized)
    requires 1 <= request && current < request
    ensures r.size >= current
    ensures r.degraded <==> free.Some? && RoundUp(request) - current > free.value
    ensures r.degraded ==> r.size == current
    ensures !r.degraded ==> r.size == RoundUp(request) && r.size >= request
    ensures !r.degraded && free.Some? ==> r.size - current <= free.value
  {
    var n := RoundUp(request);
    if free.Some? && n - current > free.value then Sized(current, true) else Sized(n, false)
  }

  /** The request with the bound the rounding needs: as Requested, but a
      request above MaxRequest is capped there, so that the rounding of
      alog.c:415, 461 and 483 fits a C `int` (the corrected behaviour; the
      unbounded one overflows). */
  function BoundedRequest(logSize: int): (n: int)
    ensures DefSize <= n <= MaxRequest
    ensures logSize <= MaxRequest ==> n == Requested(logSize)
    ensures logSize > MaxRequest ==> n == MaxRequest
    ensures RoundUp(n) <= MaxRequest
  {
    var n := if logSize > MaxRequest then MaxRequest else Requested(logSize);
    RoundUpLeast(n, MaxRequest);
    n
  }

  /** Every size a bounded request yields, on creation or by growth of a log
      whose size fits, is a multiple of DEF_SIZE that fits a C `int`. */
  lemma BoundedSizes(logSize: int, current: int, free: Option<int>)
    ensures var c := CreateSize(BoundedRequest(logSize), free).size;
      c % DefSize == 0 && DefSize <= c <= MaxRequest < 0x8000_0000
    ensures var n := BoundedRequest(logSize);
      0 <= current < n ==> GrowSize(current, n, free).size <= MaxRequest
    ensures var n := BoundedRequest(logSize);
      0 <= current < n && current % DefSize == 0 ==> GrowSize(current, n, free).size % DefSize == 0
  {
  }
}

=== FILE: endian.dfy ===
/** Byte order of 32-bit words (endian.c).

    The host's byte order, which the source detects at run time by looking at
    the first byte of a 16-bit integer, is a parameter here: `little` is true on
    a little-endian host. */
module Endian {

  /** Byte `k` of `w`, counting from the least significant byte (k = 0). */
  function ByteOf(w: bv32, k: nat): bv8
    requires k < 4
  {
    if k == 0 then (w & 0xFF) as bv8
    else if k == 1 then ((w >> 8) & 0xFF) as bv8
    else if k == 2 then ((w >> 16) & 0xFF) as bv8
    else ((w >> 24) & 0xFF) as bv8
  }

  /** The word whose bytes, least significant first, are b0, b1, b2, b3. */
  function Compose(b0: bv8, b1: bv8, b2: bv8, b3: bv8): bv32
  {
    ((b3 as bv32) << 24) | ((b2 as bv32) << 16) | ((b1 as bv32) << 8) | (b0 as bv32)
  }

  /** The bytes of a composed word are the bytes it was composed from. */
  lemma ComposeBytes(b0: bv8, b1: bv8, b2: bv8, b3: bv8)
    ensures var w := Compose(b0, b1, b2, b3);
      ByteOf(w, 0) == b0 && ByteOf(w, 1) == b1 && ByteOf(w, 2) == b2 && ByteOf(w, 3) == b3
  {
  }

  /** swap_uint32: exchange bytes within each half, then exchange the halves. */
  function SwapUint32(val: bv32): bv32
  {
    var v := ((val << 8) & 0xFF00FF00) | ((val >> 8) & 0xFF00FF);
    (v << 16) | (v >> 16)
  }

  /** Byte k of the swapped word is byte 3 - k of the original. */
  lemma SwapReversesBytes(x: bv32, k: nat)
    requires k < 4
    ensures ByteOf(SwapUint32(x), k) == ByteOf(x, 3 - k)
  {
    if k == 0 {
    } else if k == 1 {
    } else if k == 2 {
    } else {
    }
  }

  /** Swapping twice gives the word back. */
  lemma SwapInvolution(x: bv32)
    ensures SwapUint32(SwapUint32(x)) == x
  {
  }

  /** A word is its own swap exactly when it reads the same from either end. */
  lemma SwapFixedPoint(x: bv32)
    ensures SwapUint32(x) == x <==> ByteOf(x, 0) == ByteOf(x, 3) && ByteOf(x, 1) == ByteOf(x, 2)
  {
    SwapReversesBytes(x, 0);
    SwapReversesBytes(x, 1);
    SwapReversesBytes(x, 2);
    SwapReversesBytes(x, 3);
    WordOfBytes(x);
    WordOfBytes(SwapUint32(x));
  }

  /** The magic number of a log, as a little-endian host reads it from disk. */
  lemma SwappedMagic()
    ensures SwapUint32(0xf9f3f9f4) == 0xf4f9f3f9
  {
  }

  /** A word is determined by its four bytes. */
  lemma WordOfBytes(w: bv32)
    ensures w == Compose(ByteOf(w, 0), ByteOf(w, 1), ByteOf(w, 2), ByteOf(w, 3))
  {
  }

  /** How the host lays out a word in memory: the four bytes `fwrite` writes. */
  function HostBytes(w: bv32, little: bool): (s: seq<bv8>)
    ensures |s| == 4
  {
    if little then [ByteOf(w, 0), ByteOf(w, 1), ByteOf(w, 2), ByteOf(w, 3)]
    else [ByteOf(w, 3), ByteOf(w, 2), ByteOf(w, 1), ByteOf(w, 0)]
  }

  /** The word the host sees when `fread` fills it from four bytes. */
  function HostWord(s: seq<bv8>, little: bool): bv32
    requires |s| == 4
  {
    if little then Compose(s[0], s[1], s[2], s[3]) else Compose(s[3], s[2], s[1], s[0])
  }

  /** Reading back what was written gives the same word, on either host. */
  lemma HostWordOfHostBytes(w: bv32, little: bool)
    ensures HostWord(HostBytes(w, little), little) == w
  {
    WordOfBytes(w);
  }

  /** A word laid out by one host and read by a host of the other byte order
      comes out swapped. */
  lemma HostWordCrossed(w: bv32, little: bool)
    ensures HostWord(HostBytes(w, little), !little) == SwapUint32(w)
  {
    var s := SwapUint32(w);
    SwapReversesBytes(w, 0);
    SwapReversesBytes(w, 1);
    SwapReversesBytes(w, 2);
    SwapReversesBytes(w, 3);
    WordOfBytes(s);
    if little {
      assert HostWord(HostBytes(w, little), !little) == Compose(ByteOf(s, 0), ByteOf(s, 1), ByteOf(s, 2), ByteOf(s, 3));
    } else {
      assert HostWord(HostBytes(w, little), !little) == Compose(ByteOf(s, 0), ByteOf(s, 1), ByteOf(s, 2), ByteOf(s, 3));
    }
  }

  /** Laying out the swapped word on one host gives the bytes the other host
      lays out for the original word. */
  lemma HostBytesOfSwap(w: bv32, little: bool)
    ensures HostBytes(SwapUint32(w), little) == HostBytes(w, !little)
  {
    SwapReversesBytes(w, 0);
    SwapReversesBytes(w, 1);
    SwapReversesBytes(w, 2);
    SwapReversesBytes(w, 3);
  }

  /** Writing back the word read from four bytes gives those bytes. */
  lemma HostBytesOfHostWord(s: seq<bv8>, little: bool)
    requires |s| == 4
    ensures HostBytes(HostWord(s, little), little) == s
  {
    if little {
      ComposeBytes(s[0], s[1], s[2], s[3]);
    } else {
      ComposeBytes(s[3], s[2], s[1], s[0]);
    }
  }
}

=== FILE: exit_status.dfy ===
/** The exit status of alog.c: set_result, which keeps the first nonzero
    status, and the flag-combination check, which calls it with status 1. */
module ExitStatus {

  /** set_result as a value: a nonzero result is kept, a zero one replaced. */
  function MergeResult(result: int, newResult: int): (r: int)
    ensures r == 0 ==> result == 0 && newResult == 0
  {
    if result != 0 then result else newResult
  }

  /** The result after set_result has been called with each of `news` in turn. */
  function Accumulate(result: int, news: seq<int>): int
    decreases |news|
  {
    if news == [] then result else Accumulate(MergeResult(result, news[0]), news[1..])
  }

  /** The first nonzero status of `rs`, or 0 when there is none. */
  function FirstNonzero(rs: seq<int>): int
    decreases |rs|
  {
    if rs == [] then 0 else if rs[0] != 0 then rs[0] else FirstNonzero(rs[1..])
  }

  /** A nonzero result is never changed by later calls. */
  lemma {:induction false} AccumulateKeeps(result: int, news: seq<int>)
    requires result != 0
    ensures Accumulate(result, news) == result
    decreases |news|
  {
    if news != [] {
      AccumulateKeeps(result, news[1..]);
    }
  }

  /** Starting from 0, the first nonzero status wins. */
  lemma {:induction false} FirstNonzeroWins(news: seq<int>)
    ensures Accumulate(0, news) == FirstNonzero(news)
    decreases |news|
  {
    if news != [] {
      if news[0] != 0 {
        AccumulateKeeps(news[0], news[1..]);
      } else {
        FirstNonzeroWins(news[1..]);
      }
    }
  }

  /** The command-line flags that take part in the combination check. */
  datatype Flags = Flags(C: bool, f: bool, L: bool, o: bool, q: bool, s: bool, t: bool, V: bool, w: bool)

  /** The flag-combination check (alog.c:217-264): true when one of its rules
      calls set_result(1). */
  predicate BadCombination(fl: Flags)
  {
    || (fl.C && (!fl.t || !(fl.s || fl.f || fl.w) || fl.L || fl.o || fl.q || fl.V))
    || (fl.f && (fl.L || fl.V))
    || (fl.L && (fl.C || fl.f || fl.o || fl.s || fl.q || fl.V || fl.w))
    || (fl.o && ((!fl.f && !fl.t) || fl.C || fl.L || fl.s || fl.q || fl.V || fl.w))
    || (fl.q && ((!fl.f && !fl.t) || fl.C || fl.L || fl.o || fl.V || fl.w))
    || (fl.s && ((!fl.f && !fl.t) || fl.L || fl.o || fl.V))
    || (fl.V && (!fl.t || fl.C || fl.f || fl.L || fl.o || fl.s || fl.q || fl.w))
    || (fl.w && (!fl.C || !fl.t || fl.L || fl.o || fl.q || fl.V))
  }

  /** An accepted combination selects at most one of the modes -C, -L, -o, -V;
      output mode names a log and neither resizes nor logs; -w comes with -C
      and -t. */
  lemma AcceptedCombinations(fl: Flags)
    requires !BadCombination(fl)
    ensures (if fl.C then 1 else 0) + (if fl.L then 1 else 0) + (if fl.o then 1 else 0)
            + (if fl.V then 1 else 0) <= 1
    ensures fl.o ==> (fl.f || fl.t) && !fl.s && !fl.q
    ensures fl.w ==> fl.C && fl.t
    ensures fl.q || fl.s ==> fl.f || fl.t
  {
  }

  /** Plain logging to a named file, optionally resized and quiet, is accepted. */
  lemma LoggingAccepted(fl: Flags)
    requires fl.f && !fl.C && !fl.L && !fl.o && !fl.V && !fl.w
    ensures !BadCombination(fl)
  {
  }
}

=== FILE: findings.dfy ===
/** Three places where alog.c, as written, does not do what the rest of the
    program evidently intends. Each is modelled here as written, with a lemma
    that exhibits the discrepancy; the rest of the model uses the corrected
    behaviour. */
module Findings {
  import opened Wrappers
  import opened Endian
  import opened LogFormat
  import opened AlogUtil
  import opened RingSpec
  import opened Capacity
  import opened Store

  /** The header main reads back after a shrink (alog.c:524-528): `fread`
      with no to_big_endian after it. On a big-endian host that is harmless. */
  function RereadAsWritten(f: seq<bv8>, little: bool): (h: Header)
    requires |f| >= HeaderSize
    ensures !little ==> h == Decode(f[..HeaderSize], little)
  {
    StructOf(f[..HeaderSize], little)
  }

  /** On a little-endian host the header of every stored log comes back
      byte-swapped: the magic number reads as 0xf4f9f3f9 and `top`, 20 on
      disk, as 0x1400_0000, so the appends that follow seek far beyond the
      log. Writing that header back at the end of the session leaves a file
      whose magic number the next run rejects. */
  lemma RereadSwapsOnLittleEndian(r: Ring)
    requires Stored(r)
    ensures var h := RereadAsWritten(r.data, true);
      && h.magic == 0xf4f9f3f9 && h.magic != AlogMagic
      && AsInt(h.top) == 0x1400_0000 && AsInt(h.top) != r.top
      && Decode(Encode(h, true), true).magic != AlogMagic
  {
    var d := Decode(r.data[..HeaderSize], true);
    var h := RereadAsWritten(r.data, true);
    RereadIsSwapped(r.data);
    StoredMagicAndTop(r);
    SwappedFields(d);
    SwappedTopValue(h.top);
    DecodeEncode(h, true, true);
  }

  /** Without the transform, a little-endian host reads the byte-swapped
      form of the header that the transform would give. */
  lemma RereadIsSwapped(f: seq<bv8>)
    requires |f| >= HeaderSize
    ensures RereadAsWritten(f, true) == ToBigEndian(Decode(f[..HeaderSize], true), true)
  {
    ToBigEndianTwice(StructOf(f[..HeaderSize], true), true);
  }

  /** A stored log carries the magic number and `top` HeaderSize. */
  lemma StoredMagicAndTop(r: Ring)
    requires Stored(r)
    ensures var d := Decode(r.data[..HeaderSize], true);
      d.magic == AlogMagic && d.top == 20
  {
    var d := Decode(r.data[..HeaderSize], true);
    ReadBack(r, true);
    WordOfValue(d.top);
  }

  /** The magic number and a `top` of 20, byte-swapped. */
  lemma SwappedFields(d: Header)
    requires d.magic == AlogMagic && d.top == 20
    ensures ToBigEndian(d, true).magic == 0xf4f9f3f9 && ToBigEndian(d, true).top == 0x1400_0000
  {
    SwappedMagic();
  }

  /** The C `int` value of `top` as the byte-swapped re-read sees it. */
  lemma SwappedTopValue(w: bv32)
    requires w == 0x1400_0000
    ensures AsInt(w) == 0x1400_0000
  {
  }

  /** The file that a session which fell back to /dev/null leaves behind when
      -s is given (alog.c:448-522 as written). The -s block reopens the
      file that is not a log. It appends NUL bytes when the rounded request
      exceeds the synthetic size DEF_SIZE. Then it writes the synthetic
      header, carrying the grown size, at offset 0. The append loop that
      follows logs into this file as well. */
  function FallbackResizeAsWritten(f: seq<bv8>, request: int, free: Option<int>, appendOk: bool): (f': seq<bv8>)
    requires DefSize <= request <= MaxRequest
    ensures |f'| >= HeaderSize
  {
    RoundUpLeast(request, MaxRequest);
    var size := if DefSize < request && appendOk then GrowSize(DefSize, request, free).size else DefSize;
    var grown := f + Fill(0, size - DefSize);
    Image(0, 0, 0, size) + (if |grown| >= HeaderSize then grown[HeaderSize..] else [])
  }

  /** A file that is not a log is changed by that block, and afterwards it
      carries the magic number of a log, although the fallback of
      alog.c:379-392 exists so that such a file is left alone. */
  lemma FallbackResizeClobbers(f: seq<bv8>, request: int, free: Option<int>, appendOk: bool, little: bool)
    requires Classify(f, little) == NotAlog
    requires DefSize <= request <= MaxRequest
    ensures var f' := FallbackResizeAsWritten(f, request, free, appendOk);
      && f' != f
      && Decode(f'[..HeaderSize], little).magic == AlogMagic
  {
    RoundUpLeast(request, MaxRequest);
    var size := if DefSize < request && appendOk then GrowSize(DefSize, request, free).size else DefSize;
    var f' := FallbackResizeAsWritten(f, request, free, appendOk);
    assert f'[..HeaderSize] == Image(0, 0, 0, size);
    ReadImage(0, 0, 0, size, little);
    if |f| >= HeaderSize {
      assert f[..HeaderSize] != f'[..HeaderSize];
    }
  }

  /** A value held in a 32-bit C `int`, wrapping on overflow as common
      compilers do (signed overflow is undefined behaviour in C). */
  function Wrap32(x: int): (y: int)
    ensures -0x8000_0000 <= y < 0x8000_0000
    ensures (y - x) % 0x1_0000_0000 == 0
    ensures -0x8000_0000 <= x < 0x8000_0000 ==> y == x
  {
    var m := x % 0x1_0000_0000;
    if m < 0x8000_0000 then m else m - 0x1_0000_0000
  }

  /** The rounding of alog.c:415, 461 and 483 on a 32-bit `int`. */
  function RoundUpInt32(j: int): int
    requires 1 <= j < 0x8000_0000
  {
    Wrap32(RoundUp(j))
  }

  /** Up to MaxRequest the 32-bit rounding is the exact one; for every
      larger request it overflows to the most negative `int`, which then
      becomes the size of the log. */
  lemma RoundUpInt32Overflows(j: int)
    requires 1 <= j < 0x8000_0000
    ensures j <= MaxRequest ==> RoundUpInt32(j) == RoundUp(j)
    ensures j > MaxRequest ==> RoundUpInt32(j) == -0x8000_0000
  {
    RoundUpLeast(j, 0x8000_0000);
    if j <= MaxRequest {
      RoundUpLeast(j, MaxRequest);
    } else {
      var n := RoundUp(j);
      var k := n / DefSize;
      assert n == k * DefSize;
      assert k * DefSize > (MaxRequest / DefSize) * DefSize;
      assert k > MaxRequest / DefSize;
      assert n == 0x8000_0000;
    }
  }

  /** With the request bounded (Capacity.BoundedRequest), the 32-bit
      rounding is the exact one. */
  lemma BoundedRoundingExact(logSize: int)
    ensures RoundUpInt32(BoundedRequest(logSize)) == RoundUp(BoundedRequest(logSize))
  {
    RoundUpInt32Overflows(BoundedRequest(logSize));
  }
}

=== FILE: log_format.dfy ===
/** The on-disk header of a circular log and its constants (alog.h). */
module LogFormat {
  import opened Endian

  /** Sizes are rounded to multiples of this many bytes; also the smallest log. */
  const DefSize: int := 4096
  /** First word of every log file. */
  const AlogMagic: bv32 := 0xf9f3f9f4
  /** sizeof(struct bl_head): five 4-byte fields. */
  const HeaderSize: int := 20

  /** struct bl_head, each field as the 32 bits it occupies in memory. */
  datatype Header = Header(magic: bv32, top: bv32, current: bv32, bottom: bv32, size: bv32)

  /** The value of a C `int` whose 32 bits are `w` (two's complement). */
  function AsInt(w: bv32): (n: int)
    ensures -0x8000_0000 <= n < 0x8000_0000
    ensures n >= 0 ==> n == w as int
    ensures (n - w as int) % 0x1_0000_0000 == 0
  {
    WordRange(w);
    var u := w as int;
    if u < 0x8000_0000 then u else u - 0x1_0000_0000
  }

  lemma WordRange(w: bv32)
    ensures 0 <= w as int < 0x1_0000_0000
  {
  }

  /** The 32 bits of a non-negative C `int`. */
  function ToWord(n: int): bv32
    requires 0 <= n < 0x1_0000_0000
  {
    var b := IntBytes(n);
    Compose(b[3], b[2], b[1], b[0])
  }

  /** The four bytes of a non-negative C `int`, most significant first. */
  function IntBytes(n: int): (s: seq<bv8>)
    requires 0 <= n < 0x1_0000_0000
    ensures |s| == 4
  {
    Digits(n);
    [Byte(n / 0x100_0000), Byte((n / 0x1_0000) % 0x100), Byte((n / 0x100) % 0x100), Byte(n % 0x100)]
  }

  /** ToWord(n) has the value n. */
  lemma ToWordValue(n: int)
    requires 0 <= n < 0x1_0000_0000
    ensures ToWord(n) as int == n
  {
    Digits(n);
    var q0, q1, q2, q3 := n % 0x100, (n / 0x100) % 0x100, (n / 0x1_0000) % 0x100, n / 0x100_0000;
    ByteValue(q0);
    ByteValue(q1);
    ByteValue(q2);
    ByteValue(q3);
    ComposeValue(Byte(q0), Byte(q1), Byte(q2), Byte(q3));
  }

  /** The bytes of ToWord(n), most significant first, are IntBytes(n). */
  lemma WordBytes(n: int)
    requires 0 <= n < 0x1_0000_0000
    ensures [ByteOf(ToWord(n), 3), ByteOf(ToWord(n), 2), ByteOf(ToWord(n), 1), ByteOf(ToWord(n), 0)] == IntBytes(n)
  {
    var b := IntBytes(n);
    ComposeBytes(b[3], b[2], b[1], b[0]);
  }

  /** A non-negative `int` survives the trip through its 32 bits. */
  lemma AsIntToWord(n: int)
    requires 0 <= n < 0x8000_0000
    ensures AsInt(ToWord(n)) == n
  {
    ToWordValue(n);
  }

  /** The byte whose value is `x`, counted up from zero. */
  function Byte(x: int): bv8
    requires 0 <= x < 0x100
    decreases x
  {
    if x == 0 then 0 else Byte(x - 1) + 1
  }

  lemma {:induction false} ByteValue(x: int)
    requires 0 <= x < 0x100
    ensures Byte(x) as int == x
    decreases x
  {
    if x != 0 {
      ByteValue(x - 1);
      Increment(Byte(x - 1));
    }
  }

  lemma Increment(b: bv8)
    requires b < 0xff
    ensures (b + 1) as int == b as int + 1
  {
  }

  lemma ComposeValue(b0: bv8, b1: bv8, b2: bv8, b3: bv8)
    ensures Compose(b0, b1, b2, b3) as int
         == b3 as int * 0x100_0000 + b2 as int * 0x1_0000 + b1 as int * 0x100 + b0 as int
  {
    assert Compose(b0, b1, b2, b3) == ((b3 as bv32) << 24) | ((b2 as bv32) << 16) | ((b1 as bv32) << 8) | (b0 as bv32);
    ShiftValue(b0, b1, b2, b3);
  }

  lemma ShiftValue(b0: bv8, b1: bv8, b2: bv8, b3: bv8)
    ensures (((b3 as bv32) << 24) | ((b2 as bv32) << 16) | ((b1 as bv32) << 8) | (b0 as bv32)) as int
         == b3 as int * 0x100_0000 + b2 as int * 0x1_0000 + b1 as int * 0x100 + b0 as int
  {
  }

  /** Base-256 digits of a 32-bit quantity. */
  lemma Digits(n: int)
    requires 0 <= n < 0x1_0000_0000
    ensures 0 <= n / 0x100_0000 < 0x100
    ensures n == (n / 0x100_0000) * 0x100_0000 + ((n / 0x1_0000) % 0x100) * 0x1_0000
              + ((n / 0x100) % 0x100) * 0x100 + n % 0x100
  {
    var n1 := n / 0x100;
    var n2 := n1 / 0x100;
    assert n == n1 * 0x100 + n % 0x100;
    assert n1 == n2 * 0x100 + n1 % 0x100;
    assert n2 == (n2 / 0x100) * 0x100 + n2 % 0x100;
    assert n2 == n / 0x1_0000;
    assert n2 / 0x100 == n / 0x100_0000;
  }
}

=== FILE: ring.dfy ===
/** The ring of a log file as a value: the cursors of the header, the bytes of
    the file, one iteration of the append loop of alog.c, and the order in
    which output_log reads the ring back. */
module RingSpec {

  /** `top`, `current`, `bottom` and `size` of the header and the bytes of the
      file they index (header region included: offsets are file offsets). */
  datatype Ring = Ring(top: int, current: int, bottom: int, size: int, data: seq<bv8>)

  /** The shape every session keeps while it appends: the write cursor lies in
      [top, size], the read end in [top, size], the data region is not empty and
      the file is exactly `size` bytes long. `bottom` may lag behind `current`
      until the loop ends. */
  predicate Live(r: Ring)
  {
    && 0 <= r.top <= r.current <= r.size
    && r.top <= r.bottom <= r.size
    && r.top < r.size
    && |r.data| == r.size
  }

  /** Offset where the next appended byte lands. */
  function WritePos(r: Ring): int
  {
    if r.current < r.size then r.current else r.top
  }

  /** One pass of the append loop's body (alog.c:555-571): below `size` the byte
      is written at `current`; at `size` the cursor wraps to `top`, the byte is
      written there and `bottom` becomes `size`. */
  function Step(r: Ring, b: bv8): (r': Ring)
    requires Live(r)
    ensures Live(r')
    ensures r'.top == r.top && r'.size == r.size
  {
    if r.current < r.size then
      r.(current := r.current + 1, data := r.data[r.current := b])
    else
      r.(current := r.top + 1, bottom := r.size, data := r.data[r.top := b])
  }

  /** The append step writes exactly one byte, at `current` or, on a wrap, at
      `top`, and moves the write cursor just past it. */
  lemma StepWritesOneByte(r: Ring, b: bv8)
    requires Live(r)
    ensures var r', p := Step(r, b), WritePos(r);
      && r.top <= p < r.size
      && r'.data[p] == b
      && (forall i :: 0 <= i < r.size && i != p ==> r'.data[i] == r.data[i])
      && r'.current == p + 1
      && r'.bottom == (if r.current < r.size then r.bottom else r.size)
  {
  }

  /** The loop over a whole input: the bytes of `bs`, in order. */
  function Steps(r: Ring, bs: seq<bv8>): (r': Ring)
    requires Live(r)
    ensures Live(r')
    ensures r'.top == r.top && r'.size == r.size
    decreases |bs|
  {
    if bs == [] then r else Step(Steps(r, bs[..|bs| - 1]), bs[|bs| - 1])
  }

  /** The fix-up after the loop (alog.c:575-576): `bottom` rises to `current`. */
  function Settle(r: Ring): (r': Ring)
    requires Live(r)
    ensures Live(r') && r'.top <= r'.current <= r'.bottom <= r'.size
    ensures r'.bottom == r.bottom || r'.bottom == r.current
    ensures r'.bottom >= r.bottom && r'.bottom >= r.current
    ensures r'.(bottom := r.bottom) == r
  {
    if r.current > r.bottom then r.(bottom := r.current) else r
  }

  /** The end of the oldest segment, as the reader sees it after the fix-up. */
  function ReadEnd(r: Ring): int
  {
    if r.bottom < r.current then r.current else r.bottom
  }

  /** The log's content oldest byte first: offsets [current, bottom) and then
      [top, current), reading `bottom` as it stands after the fix-up. */
  function Ordered(r: Ring): (s: seq<bv8>)
    requires Live(r)
    ensures |s| == ReadEnd(r) - r.top
  {
    r.data[r.current..ReadEnd(r)] + r.data[r.top..r.current]
  }

  /** The fix-up changes nothing the reader sees. */
  lemma OrderedSettle(r: Ring)
    requires Live(r)
    ensures Ordered(Settle(r)) == Ordered(r)
    ensures var s := Settle(r); s.data[s.current..s.bottom] + s.data[s.top..s.current] == Ordered(r)
  {
  }

  /** True when the next byte overwrites the oldest byte the reader would show:
      the cursor is inside an old generation, or at the end of the ring. */
  predicate Full(r: Ring)
  {
    r.current < r.bottom || r.current == r.size
  }

  /** One append adds the byte at the newest end of the content and, when the
      ring is full, drops the oldest byte. */
  lemma OrderedStep(r: Ring, b: bv8)
    requires Live(r)
    ensures Full(r) ==> |Ordered(r)| > 0
    ensures Ordered(Step(r, b)) == (if Full(r) then Ordered(r)[1..] else Ordered(r)) + [b]
  {
    if r.current < r.size && !Full(r) {
      StepBelowReadEnd(r, b);
    } else if r.current < r.size {
      StepInsideOldGeneration(r, b);
    } else {
      StepWraps(r, b);
    }
  }

  lemma StepBelowReadEnd(r: Ring, b: bv8)
    requires Live(r) && r.bottom <= r.current < r.size
    ensures Ordered(Step(r, b)) == Ordered(r) + [b]
  {
    var d' := Step(r, b).data;
    assert Ordered(r) == r.data[r.top..r.current];
    assert Ordered(Step(r, b)) == d'[r.top..r.current + 1];
    assert d'[r.top..r.current + 1] == r.data[r.top..r.current] + [b];
  }

  lemma StepInsideOldGeneration(r: Ring, b: bv8)
    requires Live(r) && r.current < r.bottom
    ensures |Ordered(r)| > 0
    ensures Ordered(Step(r, b)) == Ordered(r)[1..] + [b]
  {
    var d, d' := r.data, Step(r, b).data;
    var t, c, e := r.top, r.current, r.bottom;
    assert Ordered(Step(r, b)) == d'[c + 1..e] + d'[t..c + 1];
    assert d'[c + 1..e] == d[c + 1..e];
    assert d'[t..c + 1] == d[t..c] + [b];
    assert d[c..e] == [d[c]] + d[c + 1..e];
    assert Ordered(r)[1..] == d[c + 1..e] + d[t..c];
  }

  lemma StepWraps(r: Ring, b: bv8)
    requires Live(r) && r.current == r.size
    ensures |Ordered(r)| > 0
    ensures Ordered(Step(r, b)) == Ordered(r)[1..] + [b]
  {
    var d, d' := r.data, Step(r, b).data;
    var t, s := r.top, r.size;
    assert Ordered(r) == d[t..s];
    assert Ordered(Step(r, b)) == d'[t + 1..s] + d'[t..t + 1];
    assert d'[t + 1..s] == d[t + 1..s];
    assert d'[t..t + 1] == [b];
    assert d[t..s] == [d[t]] + d[t + 1..s];
  }

  /** Over any input the content stays in chronological order: what the reader
      shows afterwards is a suffix of the old content followed by the input. */
  lemma {:induction false} OrderedSteps(r: Ring, bs: seq<bv8>)
    requires Live(r)
    ensures IsSuffix(Ordered(Steps(r, bs)), Ordered(r) + bs)
    decreases |bs|
  {
    if bs != [] {
      var init, b := bs[..|bs| - 1], bs[|bs| - 1];
      assert bs == init + [b];
      OrderedSteps(r, init);
      var p := Steps(r, init);
      OrderedStep(p, b);
      var o, all := Ordered(Steps(r, bs)), Ordered(r) + bs;
      var op, allp := Ordered(p), Ordered(r) + init;
      assert all == allp + [b];
      if Full(p) {
        assert o == op[1..] + [b];
        SuffixDrop(op, allp);
        SuffixThenInput(op[1..], allp, [b]);
      } else {
        assert o == op + [b];
        SuffixThenInput(op, allp, [b]);
      }
    }
  }

  /** Dropping the oldest element of a suffix leaves a suffix. */
  lemma SuffixDrop(a: seq<bv8>, b: seq<bv8>)
    requires IsSuffix(a, b) && |a| > 0
    ensures IsSuffix(a[1..], b)
  {
    assert a[1..] == b[|b| - |a| + 1..];
  }

  /** `a` is what remains of `b` once some of its oldest elements are dropped. */
  predicate IsSuffix(a: seq<bv8>, b: seq<bv8>)
  {
    |a| <= |b| && a == b[|b| - |a|..]
  }

  /** A suffix of a suffix is a suffix. */
  lemma SuffixOfSuffix(a: seq<bv8>, b: seq<bv8>, c: seq<bv8>)
    requires IsSuffix(a, b) && IsSuffix(b, c)
    ensures IsSuffix(a, c)
  {
    assert a == c[|c| - |b|..][|b| - |a|..];
  }

  /** Appending the same input to both sides keeps a suffix a suffix. */
  lemma SuffixThenInput(a: seq<bv8>, b: seq<bv8>, bs: seq<bv8>)
    requires IsSuffix(a, b)
    ensures IsSuffix(a + bs, b + bs)
  {
    assert (b + bs)[|b| - |a|..] == b[|b| - |a|..] + bs;
  }

  /** Until the first wrap the write cursor has moved past every appended
      byte; from the first wrap on, the reader's end is `size`. */
  lemma {:induction false} StepsReach(r: Ring, bs: seq<bv8>)
    requires Live(r)
    ensures var p := Steps(r, bs); p.current - p.top >= |bs| || ReadEnd(p) == p.size
    decreases |bs|
  {
    if bs != [] {
      StepsReach(r, bs[..|bs| - 1]);
    }
  }

  /** The last `m` input elements are a suffix of any suffix of the old
      content followed by the input that is at least `m` long. */
  lemma SuffixOfInput(a: seq<bv8>, b: seq<bv8>, bs: seq<bv8>, m: nat)
    requires IsSuffix(a, b + bs) && m <= |a| && m <= |bs|
    ensures IsSuffix(Last(bs, m), a)
  {
    assert a[|a| - m..] == (b + bs)[|b| + |bs| - m..];
    assert (b + bs)[|b| + |bs| - m..] == bs[|bs| - m..];
  }

  /** Whatever the ring held before, after an input it shows the newest
      min(|bs|, size - top) input bytes, in order, at its newest end: the
      loop loses input only to make room for newer input. */
  lemma KeepsNewestInput(r: Ring, bs: seq<bv8>)
    requires Live(r)
    ensures IsSuffix(Last(bs, Min(|bs|, r.size - r.top)), Ordered(Steps(r, bs)))
  {
    OrderedSteps(r, bs);
    StepsReach(r, bs);
    SuffixOfInput(Ordered(Steps(r, bs)), Ordered(r), bs, Min(|bs|, r.size - r.top));
  }

  function Min(a: int, b: int): int
  {
    if a < b then a else b
  }

  /** The last `k` elements of `s`. */
  function Last(s: seq<bv8>, k: nat): (t: seq<bv8>)
    requires k <= |s|
    ensures |t| == k
  {
    s[|s| - k..]
  }

  /** The newest `k` elements of `s`, all of `s` when it is shorter, none
      when `k` is not positive. This is `Last(s, Min(|s|, k))` (see the
      ensures) made total in `k`: a contract can apply it to a size it has
      not yet shown to exceed HeaderSize, without a proof obligation for
      `k`'s range, which keeps such contracts cheap to check. The lemmas use
      `Last`, whose precondition carries the range. */
  function Newest(s: seq<bv8>, k: int): (t: seq<bv8>)
    ensures 0 <= k ==> t == Last(s, Min(|s|, k))
  {
    if k <= 0 then [] else if k >= |s| then s else s[|s| - k..]
  }

  /** A ring that has just been created: every cursor at `top`. */
  predicate Fresh(r: Ring)
  {
    Live(r) && r.current == r.top && r.bottom == r.top
  }

  /** From a fresh ring of capacity `size - top`, the cursors after `n`
      appends: no wrap while n <= capacity (the write cursor at top + n, `bottom`
      still at `top`); after that `bottom` sits at `size`. */
  lemma {:induction false} FreshCursors(r: Ring, bs: seq<bv8>)
    requires Fresh(r)
    ensures var s, cap := Steps(r, bs), r.size - r.top;
      && (|bs| <= cap ==> s.current == r.top + |bs| && s.bottom == r.top)
      && (|bs| > cap ==> s.bottom == r.size && r.top < s.current)
    decreases |bs|
  {
    if bs != [] {
      FreshCursors(r, bs[..|bs| - 1]);
    }
  }

  /** Dropping the oldest of the last `k` elements and appending one more gives
      the last `k` elements of the longer sequence. */
  lemma LastShift(s: seq<bv8>, b: bv8, k: nat)
    requires 0 < k <= |s|
    ensures Last(s, k)[1..] + [b] == Last(s + [b], k)
  {
  }

  /** Starting from a fresh ring of capacity `size - top`, the reader shows the
      last min(|bs|, capacity) appended bytes in their original order. */
  lemma {:induction false} FreshHistory(r: Ring, bs: seq<bv8>)
    requires Fresh(r)
    ensures Ordered(Steps(r, bs)) == Last(bs, Min(|bs|, r.size - r.top))
    decreases |bs|
  {
    var cap := r.size - r.top;
    if bs == [] {
      assert Ordered(r) == [];
    } else {
      var init, b := bs[..|bs| - 1], bs[|bs| - 1];
      assert bs == init + [b];
      FreshHistory(r, init);
      FreshCursors(r, init);
      var p := Steps(r, init);
      OrderedStep(p, b);
      if |init| < cap {
        assert !Full(p);
        assert Last(init, |init|) == init;
      } else {
        assert Full(p);
        LastShift(init, b, cap);
      }
    }
  }

  /** A whole session keeps the header's ordering: starting from
      top <= current <= bottom <= size with top < size, the appends and the
      fix-up end in the same ordering, with every byte landing inside the ring. */
  lemma {:induction false} SessionKeepsOrder(r: Ring, bs: seq<bv8>)
    requires Live(r) && r.current <= r.bottom
    ensures var s := Settle(Steps(r, bs));
      && s.top == r.top && s.size == r.size
      && s.top <= s.current <= s.bottom <= s.size && s.top < s.size
      && s.data[..s.top] == r.data[..r.top]
    decreases |bs|
  {
    if bs != [] {
      var init := bs[..|bs| - 1];
      SessionKeepsOrder(r, init);
      var p := Steps(r, init);
      StepWritesOneByte(p, bs[|bs| - 1]);
      assert Steps(r, bs).data[..r.top] == p.data[..r.top];
    }
  }

  /** `n` copies of the byte `b`. */
  function Fill(b: bv8, n: nat): (s: seq<bv8>)
    ensures |s| == n && forall i :: 0 <= i < n ==> s[i] == b
  {
    seq(n, _ => b)
  }

  /** The ring after `n - size` NUL bytes are added at the end of the file and
      `size` is raised to `n`. */
  function Grown(r: Ring, n: int): (r': Ring)
    requires Live(r) && n >= r.size
    ensures Live(r') && r'.size == n
    ensures r'.top == r.top && r'.current == r.current && r'.bottom == r.bottom
  {
    r.(size := n, data := r.data + Fill(0, n - r.size))
  }

  /** Growing leaves the reader's view unchanged: the new bytes lie beyond
      every segment it reads. */
  lemma OrderedGrown(r: Ring, n: int)
    requires Live(r) && n >= r.size
    ensures Ordered(Grown(r, n)) == Ordered(r)
  {
    var d, d' := r.data, Grown(r, n).data;
    var e := ReadEnd(r);
    assert d'[r.current..e] == d[r.current..e];
    assert d'[r.top..r.current] == d[r.top..r.current];
  }

  /** The reader sees only offsets from `top` on: two rings with the same
      cursors that agree there read the same. */
  lemma OrderedFromTop(r: Ring, r': Ring)
    requires Live(r) && Live(r')
    requires r'.top == r.top && r'.current == r.current && r'.bottom == r.bottom && r'.size == r.size
    requires r'.data[r.top..] == r.data[r.top..]
    ensures Ordered(r') == Ordered(r)
  {
    var t, c, e := r.top, r.current, ReadEnd(r);
    assert r.data[c..e] == r.data[t..][c - t..e - t];
    assert r'.data[c..e] == r'.data[t..][c - t..e - t];
    assert r.data[t..c] == r.data[t..][..c - t];
    assert r'.data[t..c] == r'.data[t..][..c - t];
  }
}

=== FILE: session.dfy ===
/** The logging path of alog.c's main as a stateful object: open or create
    the log, resize it when -s asks for another size, append standard input
    to the ring and write the header back. */
module Session {
  import opened Wrappers
  import opened LogFormat
  import opened AlogUtil
  import opened RingSpec
  import opened Capacity
  import opened ExitStatus
  import opened Store

  /** The state main keeps while it logs: the cursors of `lp`, the bytes of
      the file `fout` writes to, whether that is /dev/null, and the exit
      status accumulated by set_result. */
  class LogSession {
    var top: int
    var current: int
    var bottom: int
    var size: int
    /** The file's bytes; for a session on /dev/null, the bytes written to it,
        which nothing reads back. */
    var file: seq<bv8>
    var toNull: bool
    var result: int

    ghost function State(): Ring
      reads this
    {
      Ring(top, current, bottom, size, file)
    }

    ghost predicate Valid()
      reads this
    {
      && Live(State()) && HeaderSize <= size < 0x8000_0000
      && (!toNull ==> top == HeaderSize)
    }

    /** The session writes to a file that holds a stored ring with the
        session's cursors. */
    ghost predicate Closed()
      reads this
    {
      !toNull && Stored(State())
    }

    /** A new log (alog.c:398-437): the rounded request, capped by the free
        bytes of the file system; the header with every cursor at HeaderSize,
        then the data region filled with the character '0'. When the file cannot be
        created (`created` false) the same bytes go to /dev/null and the
        result is 2. */
    constructor Create(request: int, free: Option<int>, created: bool, little: bool, result0: int)
      requires DefSize <= request <= MaxRequest
      ensures Valid() && toNull == !created
      ensures size == CreateSize(request, free).size
      ensures State() == FreshRing(size)
      ensures result == MergeResult(MergeResult(result0, if created then 0 else 2),
                                    if CreateSize(request, free).degraded then 2 else 0)
    {
      var sized := CreateSize(request, free);
      RoundUpLeast(request, MaxRequest);
      var image := HeaderBytes(HeaderSize, HeaderSize, HeaderSize, sized.size, little);
      var i := 0;
      while i < sized.size - HeaderSize
        invariant 0 <= i <= sized.size - HeaderSize
        invariant image == Image(HeaderSize, HeaderSize, HeaderSize, sized.size) + Fill(CreateFill, i)
      {
        image := image + [CreateFill];
        i := i + 1;
      }
      top, current, bottom, size := HeaderSize, HeaderSize, HeaderSize, sized.size;
      file := image;
      toNull := !created;
      result := MergeResult(MergeResult(result0, if created then 0 else 2),
                            if sized.degraded then 2 else 0);
    }

    /** An existing file opened for update (alog.c:373-394): a log is adopted
        as it stands; anything else is left alone and the session logs to
        /dev/null with a synthetic header (top, current and bottom 0, size
        DEF_SIZE) and result 2. */
    constructor Open(existing: seq<bv8>, little: bool, result0: int)
      requires !Classify(existing, little).Inconsistent?
      ensures Valid()
      ensures Classify(existing, little).Adopt? ==>
        Closed() && State() == AdoptedRing(existing, little) && result == result0
      ensures Classify(existing, little).NotAlog? ==>
        && toNull && top == 0 && current == 0 && bottom == 0 && size == DefSize
        && result == MergeResult(result0, 2)
    {
      if Classify(existing, little).Adopt? {
        var r := AdoptedRing(existing, little);
        top, current, bottom, size := r.top, r.current, r.bottom, r.size;
        file := r.data;
        toNull := false;
        result := result0;
      } else {
        var sink := Fill(0, DefSize);
        assert Live(Ring(0, 0, 0, DefSize, sink));
        top, current, bottom, size := 0, 0, 0, DefSize;
        file := sink;
        toNull := true;
        result := MergeResult(result0, 2);
      }
    }

    /** set_result. */
    method SetResult(newResult: int)
      modifies this
      ensures result == MergeResult(old(result), newResult)
      ensures State() == old(State()) && toNull == old(toNull)
    {
      if result == 0 {
        result := newResult;
      }
    }

    /** One pass of the append loop (alog.c:555-571). */
    method Append(b: bv8)
      requires Valid()
      modifies this
      ensures Valid() && toNull == old(toNull) && result == old(result)
      ensures State() == Step(old(State()), b)
    {
      if current < size {
        file := file[current := b];
        current := current + 1;
      } else {
        current := top;
        file := file[current := b];
        current := current + 1;
        bottom := size;
      }
    }

    /** The read loop (alog.c:549-573) over everything standard input holds. */
    method AppendAll(input: seq<bv8>)
      requires Valid()
      modifies this
      ensures Valid() && toNull == old(toNull) && result == old(result)
      ensures State() == Steps(old(State()), input)
    {
      var i := 0;
      while i < |input|
        invariant 0 <= i <= |input|
        invariant Valid() && toNull == old(toNull) && result == old(result)
        invariant State() == Steps(old(State()), input[..i])
      {
        assert input[..i + 1][..i] == input[..i];
        Append(input[i]);
        i := i + 1;
      }
      assert input[..|input|] == input;
    }

    /** Writes `lp` at offset 0 (alog.c:519-522 and 579-582). */
    method WriteHeader(little: bool)
      requires Valid()
      modifies this
      ensures Valid() && toNull == old(toNull) && result == old(result)
      ensures State() == Rewritten(old(State()))
    {
      var header := HeaderBytes(top, current, bottom, size, little);
      file := header + file[HeaderSize..];
    }

    /** The end of a session (alog.c:575-582): `bottom` catches up with
        `current` and the header is written back. */
    method Close(little: bool)
      requires Valid()
      modifies this
      ensures Valid() && toNull == old(toNull) && result == old(result)
      ensures State() == CloseRing(old(State()))
    {
      if current > bottom {
        bottom := current;
      }
      WriteHeader(little);
    }

    /** Growing the log (alog.c:452-476) when the file could be opened for
        appending: NUL bytes are added at the end up to the rounded request,
        unless the growth exceeds the free bytes, in which case the size stays
        and the result is 2. */
    method Grow(request: int, free: Option<int>)
      requires Valid() && size < request <= MaxRequest
      modifies this
      ensures Valid() && toNull == old(toNull)
      ensures size == GrowSize(old(size), request, free).size
      ensures State() == Grown(old(State()), size)
      ensures result == MergeResult(old(result), if GrowSize(old(size), request, free).degraded then 2 else 0)
    {
      var g := GrowSize(size, request, free);
      RoundUpLeast(request, MaxRequest);
      if g.degraded {
        SetResult(2);
      }
      var grown := file;
      var i := 0;
      while i < g.size - size
        invariant 0 <= i <= g.size - size
        invariant grown == file + Fill(0, i)
      {
        grown := grown + [0];
        i := i + 1;
      }
      file := grown;
      size := g.size;
    }

    /** Shrinking the log (alog.c:478-503 and 524-528): output_log prints the
        log into a new log created with the rounded request in a temporary
        file (`tmpFree` is the free space there), which replaces the log when
        `mv` succeeds (`mvOk`); the header of the result is read back. When
        `mv` fails the log stays as it was and the result is 2. */
    method Shrink(request: int, tmpFree: Option<int>, mvOk: bool, little: bool)
      requires Closed() && DefSize <= request <= MaxRequest && request < size
      modifies this
      ensures Closed() && Valid() && result == MergeResult(old(result), if mvOk then 0 else 2)
      ensures State() == if mvOk then Reflowed(old(State()), request, tmpFree) else old(State())
    {
      var out := Print(little);
      var tmp := Reflow(out, request, tmpFree, little);
      ReflowKeepsNewest(State(), request, tmpFree);
      assert tmp.State() == Reflowed(State(), request, tmpFree);
      if mvOk {
        Replace(tmp.file, tmp.State(), little);
      } else {
        SetResult(2);
      }
    }

    /** `mv` puts the file of the stored ring `r` in place of the log, and
        main reads its header back (alog.c:497-503 and 524-528). */
    method Replace(f: seq<bv8>, ghost r: Ring, little: bool)
      requires Stored(r) && f == r.data
      modifies this
      ensures State() == r && toNull == old(toNull) && result == old(result)
    {
      file := f;
      top, current, bottom, size := ReadCursors(f, r, little);
    }

    /** output_log on the session's own log prints its content, oldest byte
        first. */
    method Print(little: bool) returns (out: seq<bv8>)
      requires Closed()
      ensures out == Ordered(State())
    {
      var d := OutputLog(Some(file), little);
      DumpStored(State(), little);
      out := d.out;
    }

    /** The -s block for a session on an existing file (alog.c:448-528): grow
        when the request exceeds the size, shrink when it is below it, and
        leave a header naming the session's cursors on the file. A session on
        /dev/null has no file of its own and is left alone. */
    method Resize(request: int, free: Option<int>, appendOk: bool, tmpFree: Option<int>, mvOk: bool, little: bool)
      requires Valid() && DefSize <= request <= MaxRequest
      requires !toNull ==> Closed()
      modifies this
      ensures Valid() && toNull == old(toNull)
      ensures toNull ==> State() == old(State()) && result == old(result)
      ensures !toNull ==>
        && State() == Resized(old(State()), request, free, appendOk, tmpFree, mvOk)
        && result == MergeResult(old(result), ResizeStatus(old(size), request, free, appendOk, mvOk))
    {
      if toNull {
        return;
      }
      if size < request {
        if appendOk {
          Grow(request, free);
        }
        WriteHeader(little);
      } else if size > request {
        Shrink(request, tmpFree, mvOk, little);
      } else {
        WriteHeader(little);
      }
    }

    /** A session on an adopted log (alog.c:448-582): the -s block when
        `resize` is set, then the append loop and the header write-back.
        The log stays stored, its content is a suffix of the old content
        followed by the input, and it ends with the newest input bytes that
        fit. */
    method LogAdopted(resize: bool, request: int, free: Option<int>, appendOk: bool,
                      tmpFree: Option<int>, mvOk: bool, input: seq<bv8>, little: bool)
      requires Closed() && Valid() && DefSize <= request <= MaxRequest
      modifies this
      ensures Closed() && Valid()
      ensures State() == Logged(if resize then Resized(old(State()), request, free, appendOk, tmpFree, mvOk)
                                else old(State()), input)
      ensures result == if resize then MergeResult(old(result), ResizeStatus(old(size), request, free, appendOk, mvOk))
                        else old(result)
      ensures IsSuffix(Ordered(State()), Ordered(old(State())) + input)
      ensures IsSuffix(Last(input, Min(|input|, size - HeaderSize)), Ordered(State()))
    {
      ghost var atOpen := State();
      if resize {
        Resize(request, free, appendOk, tmpFree, mvOk, little);
      }
      ghost var resized := State();
      AppendAll(input);
      Close(little);
      assert State() == Logged(resized, input);
      AdoptedSessionKeepsOrder(atOpen, resize, request, free, appendOk, tmpFree, mvOk, input);
    }
  }

  /** The child `alog -s n -f tmp` that a shrink runs (alog.c:480-496):
      a log created with the rounded request in a file system with `tmpFree`
      free bytes, fed `content` and closed. */
  method Reflow(content: seq<bv8>, request: int, tmpFree: Option<int>, little: bool) returns (tmp: LogSession)
    requires DefSize <= request <= MaxRequest
    ensures fresh(tmp) && !tmp.toNull
    ensures tmp.State() == Logged(FreshRing(CreateSize(RoundUp(request), tmpFree).size), content)
  {
    var n := RoundUp(request);
    RoundUpLeast(request, MaxRequest);
    tmp := new LogSession.Create(n, tmpFree, true, little, 0);
    tmp.AppendAll(content);
    tmp.Close(little);
  }

  /** The logging path of main for a log named on the command line.
      `existing` is the file when it can be opened for update, `created`
      whether it can be created otherwise; `resize` is -s and `logSize` its
      argument, bounded so that its rounding fits a C `int`
      (BoundedRequest), which is positive whenever -s is set (alog.c:159-166); `free`, `appendOk`, `tmpFree` and `mvOk` are what
      the file system answers; `input` is standard input. */
  method Run(existing: Option<seq<bv8>>, created: bool, logSize: int, resize: bool,
             free: Option<int>, appendOk: bool, tmpFree: Option<int>, mvOk: bool,
             input: seq<bv8>, little: bool, result0: int) returns (s: LogSession)
    requires existing.Some? ==> !Classify(existing.value, little).Inconsistent?
    requires resize ==> logSize > 0
    ensures s.Valid()
    ensures !s.toNull ==> s.Closed()
    ensures existing.None? ==>
      && s.toNull == !created
      && s.result == MergeResult(MergeResult(result0, if created then 0 else 2),
                                 if CreateSize(BoundedRequest(logSize), free).degraded then 2 else 0)
    ensures existing.None? ==>
      && s.size == CreateSize(BoundedRequest(logSize), free).size
      && s.State() == Logged(FreshRing(s.size), input)
    ensures existing.None? && created ==>
      DumpLog(Some(s.file), little).out == Newest(input, s.size - HeaderSize)
    ensures existing.Some? && Classify(existing.value, little).Adopt? ==>
      var r0 := AdoptedRing(existing.value, little);
      && !s.toNull
      && s.State() == Logged(if resize then Resized(r0, BoundedRequest(logSize), free, appendOk, tmpFree, mvOk)
                             else r0, input)
      && s.result == (if resize then MergeResult(result0, ResizeStatus(r0.size, BoundedRequest(logSize), free, appendOk, mvOk))
                      else result0)
      && IsSuffix(DumpLog(Some(s.file), little).out, DumpLog(existing, little).out + input)
      && IsSuffix(Newest(input, s.size - HeaderSize), DumpLog(Some(s.file), little).out)
    ensures existing.Some? && Classify(existing.value, little).NotAlog? ==>
      s.toNull && s.result == MergeResult(result0, 2)
  {
    var request := BoundedRequest(logSize);
    if existing.Some? {
      s := LogExisting(existing.value, resize, request, free, appendOk, tmpFree, mvOk, input, little, result0);
    } else {
      s := LogNew(created, request, free, input, little, result0);
    }
  }

  /** main when the log file exists and can be opened for update
      (alog.c:373-396, 448-582): a log is adopted, resized when -s is set,
      fed the input and closed; a file that is not a log is left alone and
      the input goes to /dev/null with result 2. */
  method LogExisting(existing: seq<bv8>, resize: bool, request: int, free: Option<int>, appendOk: bool,
                     tmpFree: Option<int>, mvOk: bool, input: seq<bv8>, little: bool, result0: int)
    returns (s: LogSession)
    requires !Classify(existing, little).Inconsistent? && DefSize <= request <= MaxRequest
    ensures s.Valid()
    ensures !s.toNull ==> s.Closed()
    ensures Classify(existing, little).Adopt? ==>
      var r0 := AdoptedRing(existing, little);
      && !s.toNull
      && s.State() == Logged(if resize then Resized(r0, request, free, appendOk, tmpFree, mvOk) else r0, input)
      && s.result == (if resize then MergeResult(result0, ResizeStatus(r0.size, request, free, appendOk, mvOk))
                      else result0)
    ensures Classify(existing, little).Adopt? ==>
      && IsSuffix(DumpLog(Some(s.file), little).out, DumpLog(Some(existing), little).out + input)
      && IsSuffix(Newest(input, s.size - HeaderSize), DumpLog(Some(s.file), little).out)
    ensures Classify(existing, little).NotAlog? ==>
      s.toNull && s.result == MergeResult(result0, 2)
  {
    if Classify(existing, little).Adopt? {
      s := LogIntoLog(existing, resize, request, free, appendOk, tmpFree, mvOk, input, little, result0);
    } else {
      s := new LogSession.Open(existing, little, result0);
      s.AppendAll(input);
      s.Close(little);
    }
  }

  /** The session on a file that holds a log (alog.c:373-377, 448-582). */
  method LogIntoLog(existing: seq<bv8>, resize: bool, request: int, free: Option<int>, appendOk: bool,
                    tmpFree: Option<int>, mvOk: bool, input: seq<bv8>, little: bool, result0: int)
    returns (s: LogSession)
    requires Classify(existing, little).Adopt? && DefSize <= request <= MaxRequest
    ensures s.Valid() && s.Closed()
    ensures var r0 := AdoptedRing(existing, little);
      && s.State() == Logged(if resize then Resized(r0, request, free, appendOk, tmpFree, mvOk) else r0, input)
      && s.result == (if resize then MergeResult(result0, ResizeStatus(r0.size, request, free, appendOk, mvOk))
                      else result0)
    ensures IsSuffix(DumpLog(Some(s.file), little).out, DumpLog(Some(existing), little).out + input)
    ensures IsSuffix(Newest(input, s.size - HeaderSize), DumpLog(Some(s.file), little).out)
  {
    s := new LogSession.Open(existing, little, result0);
    ghost var r0 := AdoptedRing(existing, little);
    assert s.State() == r0 && s.result == result0;
    ghost var r1 := if resize then Resized(r0, request, free, appendOk, tmpFree, mvOk) else r0;
    s.LogAdopted(resize, request, free, appendOk, tmpFree, mvOk, input, little);
    assert s.State() == Logged(r1, input);
    AdoptedPrints(s, existing, little, resize, request, free, appendOk, tmpFree, mvOk, input);
  }

  /** A session left as the input logged into an adopted log, resized or
      not, prints a suffix of what that log printed, followed by the input,
      and ending with the newest input bytes that fit. */
  lemma AdoptedPrints(s: LogSession, f: seq<bv8>, little: bool, resize: bool, request: int, free: Option<int>,
                      appendOk: bool, tmpFree: Option<int>, mvOk: bool, input: seq<bv8>)
    requires Classify(f, little).Adopt? && DefSize <= request <= MaxRequest
    requires var r0 := AdoptedRing(f, little);
      s.State() == Logged(if resize then Resized(r0, request, free, appendOk, tmpFree, mvOk) else r0, input)
    ensures IsSuffix(DumpLog(Some(s.file), little).out, DumpLog(Some(f), little).out + input)
    ensures IsSuffix(Newest(input, s.size - HeaderSize), DumpLog(Some(s.file), little).out)
  {
    var r0 := AdoptedRing(f, little);
    AdoptedSessionKeepsOrder(r0, resize, request, free, appendOk, tmpFree, mvOk, input);
    PrintsAfter(r0, s.State(), input, little);
  }

  /** main when the log does not exist yet (alog.c:398-437, 549-582): a new
      log, or /dev/null when the file cannot be created, fed the input. */
  method LogNew(created: bool, request: int, free: Option<int>, input: seq<bv8>, little: bool, result0: int)
    returns (s: LogSession)
    requires DefSize <= request <= MaxRequest
    ensures s.Valid() && s.toNull == !created
    ensures !s.toNull ==> s.Closed()
    ensures s.size == CreateSize(request, free).size && s.State() == Logged(FreshRing(s.size), input)
    ensures s.result == MergeResult(MergeResult(result0, if created then 0 else 2),
                                    if CreateSize(request, free).degraded then 2 else 0)
    ensures created ==> DumpLog(Some(s.file), little).out == Last(input, Min(|input|, s.size - HeaderSize))
  {
    s := new LogSession.Create(request, free, created, little, result0);
    s.AppendAll(input);
    s.Close(little);
    FreshSessionKeepsNewest(s.size, input);
    DumpStored(s.State(), little);
  }
}

=== FILE: store.dfy ===
/** The log file at rest, as a value: the header main writes for given
    cursors, what opening a file finds, and the files the steps of a logging
    session leave behind. */
module Store {
  import opened Wrappers
  import opened LogFormat
  import opened AlogUtil
  import opened RingSpec
  import opened Capacity

  /** The header main keeps in `lp` for the given cursors, each field holding
      the C `int` it names. */
  function HeaderFor(top: int, current: int, bottom: int, size: int): (h: Header)
    requires 0 <= top < 0x8000_0000 && 0 <= current < 0x8000_0000
    requires 0 <= bottom < 0x8000_0000 && 0 <= size < 0x8000_0000
    ensures h.magic == AlogMagic
    ensures AsInt(h.top) == top && AsInt(h.current) == current
    ensures AsInt(h.bottom) == bottom && AsInt(h.size) == size
  {
    AsIntToWord(top);
    AsIntToWord(current);
    AsIntToWord(bottom);
    AsIntToWord(size);
    Header(AlogMagic, ToWord(top), ToWord(current), ToWord(bottom), ToWord(size))
  }

  /** The header for the given cursors as it lies on disk: the magic number
      and then each field, most significant byte first. */
  function Image(top: int, current: int, bottom: int, size: int): (s: seq<bv8>)
    requires 0 <= top < 0x8000_0000 && 0 <= current < 0x8000_0000
    requires 0 <= bottom < 0x8000_0000 && 0 <= size < 0x8000_0000
    ensures |s| == HeaderSize
  {
    [0xf9, 0xf3, 0xf9, 0xf4] + IntBytes(top) + IntBytes(current) + IntBytes(bottom) + IntBytes(size)
  }

  /** What to_big_endian followed by fwrite puts on disk, on either host, is
      the image of the header. */
  lemma ImageIsEncoding(top: int, current: int, bottom: int, size: int, little: bool)
    requires 0 <= top < 0x8000_0000 && 0 <= current < 0x8000_0000
    requires 0 <= bottom < 0x8000_0000 && 0 <= size < 0x8000_0000
    ensures Encode(HeaderFor(top, current, bottom, size), little) == Image(top, current, bottom, size)
  {
    EncodeIsBigEndian(HeaderFor(top, current, bottom, size), little);
    WordBytes(top);
    WordBytes(current);
    WordBytes(bottom);
    WordBytes(size);
  }

  /** Reading the image back, on either host, gives the magic number and the
      cursors. */
  lemma ReadImage(top: int, current: int, bottom: int, size: int, little: bool)
    requires 0 <= top < 0x8000_0000 && 0 <= current < 0x8000_0000
    requires 0 <= bottom < 0x8000_0000 && 0 <= size < 0x8000_0000
    ensures var h := Decode(Image(top, current, bottom, size), little);
      && h.magic == AlogMagic
      && AsInt(h.top) == top && AsInt(h.current) == current
      && AsInt(h.bottom) == bottom && AsInt(h.size) == size
  {
    ImageIsEncoding(top, current, bottom, size, little);
    DecodeEncode(HeaderFor(top, current, bottom, size), little, little);
  }

  /** The bytes `fwrite` puts at offset 0 for `lp` holding the given cursors,
      with to_big_endian applied before the write and again after it
      (alog.c:429-431, 519-522 and 579-582). */
  method HeaderBytes(top: int, current: int, bottom: int, size: int, little: bool) returns (s: seq<bv8>)
    requires 0 <= top < 0x8000_0000 && 0 <= current < 0x8000_0000
    requires 0 <= bottom < 0x8000_0000 && 0 <= size < 0x8000_0000
    ensures s == Image(top, current, bottom, size)
  {
    var lp := HeaderFor(top, current, bottom, size);
    lp := ToBigEndian(lp, little);
    s := StructBytes(lp, little);
    lp := ToBigEndian(lp, little);
    ImageIsEncoding(top, current, bottom, size, little);
  }

  /** The cursors `fread` and to_big_endian give back from a stored ring's
      file (alog.c:373-380 and 524-528). */
  method ReadCursors(f: seq<bv8>, ghost r: Ring, little: bool) returns (top: int, current: int, bottom: int, size: int)
    requires Stored(r) && f == r.data
    ensures top == r.top && current == r.current && bottom == r.bottom && size == r.size
  {
    ReadBack(r, little);
    var lp := StructOf(f[..HeaderSize], little);
    lp := ToBigEndian(lp, little);
    top, current, bottom, size := AsInt(lp.top), AsInt(lp.current), AsInt(lp.bottom), AsInt(lp.size);
  }

  /** A ring as a log file at rest: the data region starts right after the
      header, the reader's end is `bottom`, and the file begins with the
      image of the header naming the ring's cursors. The image being the same
      on every host, a stored ring is one on all of them. */
  ghost predicate Stored(r: Ring)
  {
    && Live(r) && r.top == HeaderSize && r.current <= r.bottom && r.size < 0x8000_0000
    && r.data[..HeaderSize] == Image(r.top, r.current, r.bottom, r.size)
  }

  /** Reading the header of a stored ring back gives its cursors. */
  lemma ReadBack(r: Ring, little: bool)
    requires Stored(r)
    ensures var h := Decode(r.data[..HeaderSize], little);
      && h.magic == AlogMagic
      && AsInt(h.top) == r.top && AsInt(h.current) == r.current
      && AsInt(h.bottom) == r.bottom && AsInt(h.size) == r.size
  {
    ReadImage(r.top, r.current, r.bottom, r.size, little);
  }

  /** output_log prints a stored ring oldest byte first, with status 0. */
  lemma DumpStored(r: Ring, little: bool)
    requires Stored(r)
    ensures DumpLog(Some(r.data), little) == Dump(Ordered(r), 0)
  {
    ReadBack(r, little);
    DumpWellFormed(r.data, little);
  }

  /** What opening an existing file finds (alog.c:373-394): not a log (the
      magic number is wrong), a log whose cursors the session adopts, or a
      header with the right magic number but cursors no session can have
      written. */
  datatype Opened = NotAlog | Adopt(top: int, current: int, bottom: int, size: int) | Inconsistent

  /** How main classifies the bytes of a file it could open for update. */
  function Classify(f: seq<bv8>, little: bool): (o: Opened)
    ensures |f| < HeaderSize ==> o == NotAlog
    ensures |f| >= HeaderSize ==> (o == NotAlog <==> Decode(f[..HeaderSize], little).magic != AlogMagic)
    ensures o.Adopt? ==> Stored(Ring(o.top, o.current, o.bottom, o.size, f))
  {
    if |f| < HeaderSize then NotAlog
    else
      var h := Decode(f[..HeaderSize], little);
      if h.magic != AlogMagic then NotAlog
      else
        var t, c, b, s := AsInt(h.top), AsInt(h.current), AsInt(h.bottom), AsInt(h.size);
        if t == HeaderSize && t <= c <= b <= s && t < s && s == |f| then
          AdoptedStored(f, little, t, c, b, s);
          Adopt(t, c, b, s)
        else Inconsistent
  }

  /** The ring main adopts from a file that Classify accepts: the cursors
      its header holds, over the file's bytes. */
  function AdoptedRing(f: seq<bv8>, little: bool): (r: Ring)
    requires Classify(f, little).Adopt?
    ensures Stored(r) && r.data == f
    ensures Classify(f, little) == Adopt(r.top, r.current, r.bottom, r.size)
  {
    var o := Classify(f, little);
    Ring(o.top, o.current, o.bottom, o.size, f)
  }

  /** A file whose header has the right magic number and well-ordered
      cursors that agree with the file's length is a stored ring. */
  lemma AdoptedStored(f: seq<bv8>, little: bool, t: int, c: int, b: int, s: int)
    requires |f| >= HeaderSize
    requires var h := Decode(f[..HeaderSize], little);
      && h.magic == AlogMagic
      && AsInt(h.top) == t && AsInt(h.current) == c && AsInt(h.bottom) == b && AsInt(h.size) == s
    requires t == HeaderSize && t <= c <= b <= s && t < s && s == |f|
    ensures Stored(Ring(t, c, b, s, f))
  {
    HeaderOfCursors(f[..HeaderSize], little);
  }

  /** A header block with the right magic number whose fields are not
      negative is the image of the cursors it holds. */
  lemma HeaderOfCursors(s: seq<bv8>, little: bool)
    requires |s| == HeaderSize
    requires var h := Decode(s, little);
      h.magic == AlogMagic && AsInt(h.top) >= 0 && AsInt(h.current) >= 0
      && AsInt(h.bottom) >= 0 && AsInt(h.size) >= 0
    ensures var h := Decode(s, little);
      Image(AsInt(h.top), AsInt(h.current), AsInt(h.bottom), AsInt(h.size)) == s
  {
    var h := Decode(s, little);
    EncodeDecode(s, little);
    WordOfInt(h.top);
    WordOfInt(h.current);
    WordOfInt(h.bottom);
    WordOfInt(h.size);
    assert HeaderFor(AsInt(h.top), AsInt(h.current), AsInt(h.bottom), AsInt(h.size)) == h;
    ImageIsEncoding(AsInt(h.top), AsInt(h.current), AsInt(h.bottom), AsInt(h.size), little);
  }

  /** A word whose C `int` is not negative is the word of that `int`. */
  lemma WordOfInt(w: bv32)
    requires AsInt(w) >= 0
    ensures ToWord(AsInt(w)) == w
  {
    var n := AsInt(w);
    ToWordValue(n);
    assert ToWord(n) as int == w as int;
    WordOfValue(ToWord(n));
    WordOfValue(w);
  }

  lemma WordOfValue(w: bv32)
    ensures (w as int) as bv32 == w
  {
  }

  /** Reopening a stored ring adopts exactly its cursors. */
  lemma ReopenStored(r: Ring, little: bool)
    requires Stored(r)
    ensures Classify(r.data, little) == Adopt(r.top, r.current, r.bottom, r.size)
  {
    ReadBack(r, little);
  }

  /** The ring after `lp` is written at offset 0 (alog.c:519-522 and 579-582):
      the first HeaderSize bytes become the image of its cursors, nothing
      else changes. */
  function Rewritten(r: Ring): (r': Ring)
    requires Live(r) && HeaderSize <= r.size < 0x8000_0000
    ensures Live(r') && r'.(data := r.data) == r
    ensures r'.data[..HeaderSize] == Image(r.top, r.current, r.bottom, r.size)
    ensures r'.data[HeaderSize..] == r.data[HeaderSize..]
  {
    r.(data := Image(r.top, r.current, r.bottom, r.size) + r.data[HeaderSize..])
  }

  /** Writing the header of a ring whose data region starts after the header
      and whose reader's end is `bottom` stores it, and the reader sees the
      same bytes as before. */
  lemma RewrittenStored(r: Ring)
    requires Live(r) && r.top == HeaderSize && r.current <= r.bottom && r.size < 0x8000_0000
    ensures Stored(Rewritten(r))
    ensures Ordered(Rewritten(r)) == Ordered(r)
  {
    var w := Rewritten(r);
    assert w.data[..HeaderSize] == Image(r.top, r.current, r.bottom, r.size);
    assert w.data[HeaderSize..] == r.data[HeaderSize..];
    OrderedFromTop(r, w);
  }

  /** Writing the header of a stored ring changes nothing. */
  lemma RewriteStored(r: Ring)
    requires Stored(r)
    ensures Rewritten(r) == r
  {
    assert r.data == r.data[..HeaderSize] + r.data[HeaderSize..];
  }

  /** The ring after the fix-up of `bottom` and the header write-back at the
      end of a session (alog.c:575-582). */
  function CloseRing(r: Ring): (r': Ring)
    requires Live(r) && HeaderSize <= r.size < 0x8000_0000
    ensures Live(r') && r'.top == r.top && r'.size == r.size
  {
    Rewritten(Settle(r))
  }

  /** Closing a session whose data region starts after the header stores the
      ring, and the reader sees the same bytes as before. */
  lemma CloseStores(r: Ring)
    requires Live(r) && r.top == HeaderSize && r.size < 0x8000_0000
    ensures Stored(CloseRing(r))
    ensures Ordered(CloseRing(r)) == Ordered(r)
  {
    OrderedSettle(r);
    RewrittenStored(Settle(r));
  }

  /** The file a whole session leaves: the input appended, the fix-up, and
      the header written back. */
  function Logged(r: Ring, input: seq<bv8>): (r': Ring)
    requires Live(r) && HeaderSize <= r.size < 0x8000_0000
    ensures Live(r') && r'.top == r.top && r'.size == r.size
  {
    CloseRing(Steps(r, input))
  }

  /** A session on a stored ring leaves a stored ring whose content, oldest
      first, is the newest part of the old content followed by the input, and
      which ends with the newest input bytes that fit in its data region. */
  lemma SessionStores(r: Ring, input: seq<bv8>)
    requires Stored(r)
    ensures Stored(Logged(r, input))
    ensures IsSuffix(Ordered(Logged(r, input)), Ordered(r) + input)
    ensures IsSuffix(Last(input, Min(|input|, r.size - HeaderSize)), Ordered(Logged(r, input)))
  {
    CloseStores(Steps(r, input));
    OrderedSteps(r, input);
    KeepsNewestInput(r, input);
  }

  /** The same about what output_log prints from the two files. */
  lemma PrintedSuffix(r: Ring, r': Ring, input: seq<bv8>, little: bool)
    requires Stored(r) && Stored(r')
    requires IsSuffix(Ordered(r'), Ordered(r) + input)
    ensures IsSuffix(DumpLog(Some(r'.data), little).out, DumpLog(Some(r.data), little).out + input)
  {
    DumpStored(r, little);
    DumpStored(r', little);
  }

  /** The byte creation fills the data region with: the character '0'
      (alog.c:432-436), where growth appends NUL bytes (alog.c:472-474).
      Neither ever reaches output_log (FreshSessionKeepsNewest, OrderedGrown). */
  const CreateFill: bv8 := 0x30

  /** The file of a newly created log of `size` bytes (alog.c:398-437): the
      header with every cursor at HeaderSize, then the data region filled
      with CreateFill. */
  function FreshRing(size: int): (r: Ring)
    requires HeaderSize < size < 0x8000_0000
    ensures Fresh(r) && r.top == HeaderSize && r.size == size
  {
    Ring(HeaderSize, HeaderSize, HeaderSize, size,
         Image(HeaderSize, HeaderSize, HeaderSize, size) + Fill(CreateFill, size - HeaderSize))
  }

  /** A new log is a stored log from which output_log prints nothing. */
  lemma FreshStored(size: int, little: bool)
    requires HeaderSize < size < 0x8000_0000
    ensures Stored(FreshRing(size))
    ensures DumpLog(Some(FreshRing(size).data), little) == Dump([], 0)
  {
    var r := FreshRing(size);
    assert r.data[..HeaderSize] == Image(HeaderSize, HeaderSize, HeaderSize, size);
    DumpStored(r, little);
  }

  /** A log created afresh and then fed `input` keeps the newest
      min(|input|, size - HeaderSize) bytes, in the order they came. */
  lemma FreshSessionKeepsNewest(size: int, input: seq<bv8>)
    requires HeaderSize < size < 0x8000_0000
    ensures Stored(Logged(FreshRing(size), input))
    ensures Ordered(Logged(FreshRing(size), input)) == Last(input, Min(|input|, size - HeaderSize))
  {
    var r := FreshRing(size);
    CloseStores(Steps(r, input));
    FreshHistory(r, input);
  }

  /** The log the reflow of a shrink to `request` leaves (alog.c:480-496):
      the content of `r`, oldest first, as output_log prints it from a stored
      log (DumpStored), fed to a log created with the rounded request in a
      file system with `tmpFree` free bytes. */
  ghost function Reflowed(r: Ring, request: int, tmpFree: Option<int>): (r': Ring)
    requires Live(r) && DefSize <= request <= MaxRequest
    ensures r'.size == CreateSize(RoundUp(request), tmpFree).size
    ensures Live(r') && DefSize <= r'.size <= MaxRequest
  {
    RoundUpLeast(request, MaxRequest);
    Logged(FreshRing(CreateSize(RoundUp(request), tmpFree).size), Ordered(r))
  }

  /** The reflow keeps the newest bytes of a stored log that fit the new
      size, oldest first, so its content is a suffix of the old content, and
      it leaves a stored log. */
  lemma ReflowKeepsNewest(r: Ring, request: int, tmpFree: Option<int>)
    requires Stored(r) && DefSize <= request <= MaxRequest
    ensures var r' := Reflowed(r, request, tmpFree);
      && Stored(r')
      && Ordered(r') == Last(Ordered(r), Min(|Ordered(r)|, r'.size - HeaderSize))
      && IsSuffix(Ordered(r'), Ordered(r))
  {
    RoundUpLeast(request, MaxRequest);
    FreshSessionKeepsNewest(CreateSize(RoundUp(request), tmpFree).size, Ordered(r));
  }

  /** The file after the -s block of main on a stored log (alog.c:448-528):
      grown (when it can be opened for appending) and rewritten when the
      request exceeds the size, replaced by the reflow when the request is
      below it and `mv` succeeds, rewritten when they are equal. */
  ghost function Resized(r: Ring, request: int, free: Option<int>, appendOk: bool,
                         tmpFree: Option<int>, mvOk: bool): (r': Ring)
    requires Live(r) && HeaderSize <= r.size < 0x8000_0000 && DefSize <= request <= MaxRequest
    ensures Live(r') && HeaderSize <= r'.size < 0x8000_0000
  {
    RoundUpLeast(request, MaxRequest);
    if r.size < request then
      Rewritten(if appendOk then Grown(r, GrowSize(r.size, request, free).size) else r)
    else if r.size > request then
      if mvOk then Reflowed(r, request, tmpFree) else r
    else
      Rewritten(r)
  }

  /** The status the -s block passes to set_result. */
  function ResizeStatus(size: int, request: int, free: Option<int>, appendOk: bool, mvOk: bool): (st: int)
    requires 1 <= request
    ensures st == 0 || st == 2
    ensures st == 2 <==> (size < request && appendOk && GrowSize(size, request, free).degraded)
                         || (size > request && !mvOk)
  {
    if size < request && appendOk && GrowSize(size, request, free).degraded then 2
    else if size > request && !mvOk then 2
    else 0
  }

  /** Resizing a stored log leaves a stored log whose content is a suffix of
      the old one: all of it when the log grows or keeps its size, the newest
      bytes that fit when it shrinks, and nothing changed when `mv` fails. */
  lemma ResizeKeeps(r: Ring, request: int, free: Option<int>, appendOk: bool,
                    tmpFree: Option<int>, mvOk: bool)
    requires Stored(r) && DefSize <= request <= MaxRequest
    ensures var r' := Resized(r, request, free, appendOk, tmpFree, mvOk);
      && Stored(r')
      && IsSuffix(Ordered(r'), Ordered(r))
      && (r.size <= request ==>
            && Ordered(r') == Ordered(r)
            && r'.current == r.current && r'.bottom == r.bottom
            && r'.size == if appendOk && r.size < request then GrowSize(r.size, request, free).size else r.size)
      && (r.size > request && !mvOk ==> r' == r)
      && (r.size > request && mvOk ==>
            && r'.size == CreateSize(RoundUp(request), tmpFree).size
            && Ordered(r') == Last(Ordered(r), Min(|Ordered(r)|, r'.size - HeaderSize)))
  {
    if r.size < request {
      GrowKeeps(r, request, free, appendOk);
    } else if r.size > request {
      if mvOk {
        ReflowKeepsNewest(r, request, tmpFree);
      }
    } else {
      RewriteStored(r);
    }
  }

  /** Growing a stored log, or failing to open it for appending, and then
      writing the header leaves a stored log with the same cursors and
      content. */
  lemma GrowKeeps(r: Ring, request: int, free: Option<int>, appendOk: bool)
    requires Stored(r) && r.size < request <= MaxRequest
    ensures var r' := Rewritten(if appendOk then Grown(r, GrowSize(r.size, request, free).size) else r);
      && Stored(r') && Ordered(r') == Ordered(r)
      && r'.current == r.current && r'.bottom == r.bottom
      && r'.size == if appendOk then GrowSize(r.size, request, free).size else r.size
  {
    RoundUpLeast(request, MaxRequest);
    var g := if appendOk then Grown(r, GrowSize(r.size, request, free).size) else r;
    if appendOk {
      OrderedGrown(r, GrowSize(r.size, request, free).size);
    }
    RewrittenStored(g);
  }

  /** With or without -s, the log a session starts appending to is a stored
      log whose content is a suffix of the content it had when opened. */
  lemma ResizeStores(r: Ring, resize: bool, request: int, free: Option<int>, appendOk: bool,
                     tmpFree: Option<int>, mvOk: bool)
    requires Stored(r) && DefSize <= request <= MaxRequest
    ensures var r1 := if resize then Resized(r, request, free, appendOk, tmpFree, mvOk) else r;
      Stored(r1) && IsSuffix(Ordered(r1), Ordered(r))
  {
    if resize {
      ResizeKeeps(r, request, free, appendOk, tmpFree, mvOk);
    } else {
      assert Ordered(r)[|Ordered(r)| - |Ordered(r)|..] == Ordered(r);
    }
  }

  /** A logging session on an existing log, resized or not, leaves a stored
      log whose content is a suffix of the old content followed by the
      input, and which ends with the newest input bytes that fit in the data
      region of the (resized) log. */
  lemma AdoptedSessionKeepsOrder(r: Ring, resize: bool, request: int, free: Option<int>, appendOk: bool,
                                 tmpFree: Option<int>, mvOk: bool, input: seq<bv8>)
    requires Stored(r) && DefSize <= request <= MaxRequest
    ensures var r1 := if resize then Resized(r, request, free, appendOk, tmpFree, mvOk) else r;
      && Stored(Logged(r1, input))
      && IsSuffix(Ordered(Logged(r1, input)), Ordered(r) + input)
      && IsSuffix(Last(input, Min(|input|, r1.size - HeaderSize)), Ordered(Logged(r1, input)))
  {
    var r1 := if resize then Resized(r, request, free, appendOk, tmpFree, mvOk) else r;
    ResizeStores(r, resize, request, free, appendOk, tmpFree, mvOk);
    assert Stored(r1) && IsSuffix(Ordered(r1), Ordered(r));
    SessionAfter(r, r1, input);
  }

  /** A session on a stored log `r1` whose content is a suffix of that of
      `r` leaves a stored log whose content is a suffix of the content of `r`
      followed by the input, and which ends with the newest input bytes that
      fit. */
  lemma SessionAfter(r: Ring, r1: Ring, input: seq<bv8>)
    requires Stored(r) && Stored(r1) && IsSuffix(Ordered(r1), Ordered(r))
    ensures && Stored(Logged(r1, input))
      && IsSuffix(Ordered(Logged(r1, input)), Ordered(r) + input)
      && IsSuffix(Last(input, Min(|input|, r1.size - HeaderSize)), Ordered(Logged(r1, input)))
  {
    SessionStores(r1, input);
    SuffixThenInput(Ordered(r1), Ordered(r), input);
    SuffixOfSuffix(Ordered(Logged(r1, input)), Ordered(r1) + input, Ordered(r) + input);
  }

  /** When a stored log's content is a suffix of an earlier stored log's
      content followed by the input, and ends with the newest input bytes
      that fit, output_log prints it that way. */
  lemma PrintsAfter(r0: Ring, r: Ring, input: seq<bv8>, little: bool)
    requires Stored(r0) && Stored(r)
    requires IsSuffix(Ordered(r), Ordered(r0) + input)
    requires IsSuffix(Last(input, Min(|input|, r.size - HeaderSize)), Ordered(r))
    ensures IsSuffix(DumpLog(Some(r.data), little).out, DumpLog(Some(r0.data), little).out + input)
    ensures IsSuffix(Newest(input, r.size - HeaderSize), DumpLog(Some(r.data), little).out)
  {
    DumpStored(r0, little);
    DumpStored(r, little);
  }
}

=== FILE: wrappers.dfy ===
/** An optional value: a file that may not exist, a probe that may fail. */
module Wrappers {
  datatype Option<T> = None | Some(value: T)
}
